=== FILE: README.md ===
# NexOpAlerts job scraper — a Dafny model

NexOpAlerts periodically scrapes job boards for a list of search terms and e-mails
listings it has not sent before. This project models its core:

- **job_scraper.py**:
  - `filter_new_jobs` drops a listing when one of the filter words is a word of its title, or when its company is a filter company. It then dedups against the `sent_jobs.csv` ledger and rewrites that ledger.
  - `scrape_with_retry` makes up to five attempts, with a 60-second pause after each failure.
  - `job_scraper` is one pass over the search terms, with round-robin proxies. Each term is isolated from failures in the others.
  - `DEFAULT_CONFIG` and `load_config`.
- **web_app.py**:
  - `update_config`: the form merge, list-field cleaning and the `interval_run` check.
  - `start_scraper` and `stop_scraper`.
  - One pass of the `run_scraper` loop.

Modules:

| file | module | contents |
|---|---|---|
| `common.dfy` | `Common` | `Option`, `Result` |
| `text.dfy` | `Text` | ASCII `lower()`, `re.findall(r'\b\w+\b')`, the `in` substring test, `strip()`, `split(',')`, `int()` |
| `seqs.dfy` | `Seqs` | order-preserving selection (a boolean mask over rows) and subsequences |
| `job_filter.dfy` | `JobRules` | listings, frames, the word and company rules |
| `ledger.dfy` | `Ledger` | the ledger file, `drop_duplicates(keep='last')`, `filter_new_jobs`, class `SentJobs` |
| `retry.dfy` | `Fetching` | the scrape call and `scrape_with_retry` |
| `cycle.dfy` | `Cycle` | `job_scraper` and what a pass e-mails |
| `web_app.dfy` | `WebApp` | configuration values, `update_config`, classes `ConfigStore` and `ScraperControl`, one `run_scraper` pass |

The scraping engine, the clock and the mail server are outside the model:

- **The scraping engine** is a parameter, `fetch(k)(a)`. It gives the frame that attempt `a` for the `k`-th term returns, or `None` when the call raises.
- **Pauses** are recorded as events, not slept.
- **E-mails** are recorded as the frame a term would send.

A listing's identity is `(title, company, str(job_url))`, compared case-sensitively as pandas does.

The lemmas about what a pass e-mails take as their premise that every frame the engine returns carries the identity columns, or no column at all (a search that found nothing). Under that premise the ledger is always either consultable (absent, or holding the identity columns) or written without columns, so that every later read raises.

## Model

| member | source | states |
|---|---|---|
| Text.Lower | job_scraper.py:107-108 | lower-casing keeps the length, turns each upper-case letter into its lower-case letter (32 code points on), leaves other characters alone, leaves no upper-case letter and keeps word characters word characters |
| Text.WordPrefixLength | job_scraper.py:109 | the run of word characters at the front of a text is maximal |
| Text.Tokens | job_scraper.py:109 | defines the words `re.findall(r'\b\w+\b')` finds, left to right: skip a non-word character, take the longest run of word characters; what they are is stated by the four lemmas below |
| Text.TokensAreMaximalRuns | job_scraper.py:109 | a text is one of the words `re.findall(r'\b\w+\b')` finds exactly when it is a maximal run of word characters in the title |
| Text.TokensSound | job_scraper.py:109 | every word found is a maximal run of word characters |
| Text.TokensComplete | job_scraper.py:109 | every maximal run of word characters is found as a word |
| Text.TokenCharsFromText | job_scraper.py:109 | every character of a found word occurs in the text, and a found word is never empty |
| Text.SingleWordTokens | job_scraper.py:109 | a text made only of word characters is a single word |
| Text.ContainsIff | job_scraper.py:167 | the substring test holds exactly when the pattern occurs at some position |
| Text.Strip | web_app.py:59 | defines `strip()` as removing whitespace from the front, then from the back; stated by the two lemmas below |
| Text.StripShape | web_app.py:59 | `strip()` removes whitespace from both ends only: the result has no whitespace at either end and is the text with whitespace prefix and suffix removed |
| Text.StripOfPadded | web_app.py:59 | a text padded with whitespace on both sides strips back to itself |
| Text.JoinSplit | web_app.py:59 | joining the pieces of `split(',')` with commas gives back the text |
| Text.SplitJoin | web_app.py:59 | splitting comma-free pieces joined with commas gives back the pieces |
| Text.Split | web_app.py:59 | `split(',')` returns at least one piece and no piece holds a comma |
| Text.NatDigitsValue | web_app.py:62 | the decimal digits of a natural number read back as that number |
| Text.ParseInt | web_app.py:62 | defines `int()` on text: an information separator (U+001C–U+001F) anywhere raises; otherwise strip whitespace, then an optional sign and one or more decimal digits, or nothing (raises); stated by the lemmas below |
| Text.DecimalReads | web_app.py:62 | the decimal numeral of any integer, with its sign, parses back to that integer |
| Text.ParseIntAcceptsOnlyNumerals | web_app.py:60-64 | `int()` reads a text exactly when it is an optional sign and one or more digits with only whitespace `int()` skips around it (`str.isspace()` whitespace other than U+001C–U+001F); anything else raises ValueError, the error `update_config` returns |
| Text.ParseIntOfPadded | web_app.py:62 | a numeral with whitespace `int()` skips around it reads as the numeral's value |
| Text.SeparatorPaddedRejected | web_app.py:62 | `strip()` removes a leading U+001C, but `int()` raises on it: `int("\x1c5")` is an error although `"\x1c5".strip()` is `"5"` |
| Text.ParseIntDecimal | web_app.py:62 | `int()` reads a decimal numeral surrounded by whitespace it skips as its value |
| Seqs.Filter | job_scraper.py:112 | a boolean mask keeps at most the rows it was given, and exactly those satisfying it |
| Seqs.FilterAll | job_scraper.py:130 | a mask that holds everywhere keeps every row |
| Seqs.FilterCount | job_scraper.py:112 | a mask keeps every copy of a selected row and no copy of the others |
| Seqs.FilterIsSubsequence | job_scraper.py:112 | a mask keeps the rows in their original order |
| Seqs.SubsequenceTransitive | job_scraper.py:128 | two order-preserving selections in a row preserve order |
| JobRules.JobFilter | job_scraper.py:106-110 | defines `job_filter`: a missing title or company reads as the empty text, the title and company are lower-cased, the title is cut into words; stated by the lemma below |
| JobRules.JobFilterIff | job_scraper.py:106-110 | a listing is kept exactly when no word of its lower-cased title is a filter word and its lower-cased company equals no lower-cased filter company |
| JobRules.UppercaseFilterWordNeverMatches | job_scraper.py:107-110 | filter words are compared as written against a lower-cased title, so a filter word with an upper-case letter never matches |
| JobRules.MissingTitleOnlyCompanyRule | job_scraper.py:107 | a listing without a title is judged by the company rule alone |
| JobRules.MissingCompanyBlockedOnlyByEmpty | job_scraper.py:108-110 | a listing without a company is dropped by the company rule exactly when some filter company lower-cases to the empty text |
| JobRules.InternDropsSoftwareIntern | job_scraper.py:109-110 | the filter word "intern" drops the title "Software Intern" |
| JobRules.InternKeepsInternship | job_scraper.py:109-110 | the filter word "intern" keeps the title "Internship": words match whole |
| JobRules.RuleFilter | job_scraper.py:106-112 | defines `new_jobs[new_jobs.apply(job_filter, axis=1)]`, including the pandas behaviour on a batch with no row or no column; stated by the lemma below |
| JobRules.RuleFilterKeepsPassing | job_scraper.py:106-112 | the rule filter raises KeyError exactly when a batch with rows and columns lacks a title or company column; otherwise a batch with no column comes back whole, and any other batch keeps exactly the passing rows, every copy, in batch order; the columns are kept, except that a batch with no rows but both columns comes back with no column at all |
| Ledger.KeepLast | job_scraper.py:132-133 | deduplication keeps every identity and leaves no identity twice |
| Ledger.KeepLastInOrder | job_scraper.py:132-133 | `drop_duplicates` keeps the surviving rows in their original order |
| Ledger.KeepLastKeepsLastOccurrences | job_scraper.py:132-133 | `drop_duplicates(keep='last')` keeps a row exactly when it is the last one with its identity |
| Ledger.FilterNewJobsSpec | job_scraper.py:103-136 | defines `filter_new_jobs`: the rule filter, then the merge with the ledger (read error on a column-less ledger, skipped dedup on a missing identity column, KeyError from `drop_duplicates` on a non-empty batch without them); stated by the lemmas below |
| Ledger.MergePassed | job_scraper.py:114-133 | defines the ledger half of `filter_new_jobs` on the rule-filtered batch |
| Ledger.NewJobsAreUnseenPassing | job_scraper.py:103-136 | when the ledger is consulted, the returned rows are exactly the rule-passing rows whose identity is not in the ledger, every copy, in batch order |
| Ledger.LedgerAfterMerge | job_scraper.py:114-133 | the ledger never loses an identity; when consulted it ends up with no duplicate identity, holding the old identities plus the returned ones under a header that keeps the old columns; otherwise it is unchanged, except that with no ledger an empty result is written as the new ledger, header only |
| Ledger.ConsultedMergeIsNew | job_scraper.py:114-133 | a consulted merge returns only identities the ledger did not hold, records them, and leaves the ledger consultable |
| Ledger.UnseenIdsNew | job_scraper.py:124-128 | the rows kept as new have no identity in the ledger |
| Ledger.RemovedNeverReturnedOrWritten | job_scraper.py:106-133 | a listing removed by the word or company rule is returned exactly when its batch has no column, so the rules never ran on it; it is never newly written to the ledger |
| Ledger.UnseenAllSeen | job_scraper.py:124-128 | rows whose identities are all in the ledger leave nothing new |
| Ledger.SecondMergeFindsNothing | job_scraper.py:103-136 | feeding the same batch again after a consulted merge returns no rows |
| Ledger.SentJobs.FilterNewJobs | job_scraper.py:103-136 | the method returns, raises and rewrites the ledger as `FilterNewJobsSpec` says, including the missing-column cases, the read error on a column-less ledger and the header-only ledger written for an empty result |
| Ledger.SkippedDedupReturnsPassed | job_scraper.py:114-119 | with a readable ledger, a missing identity column in the filtered batch or in the ledger skips the dedup: the rule-filtered batch is returned as it is and the ledger is left alone |
| Ledger.AbsentUnidentifiedRaises | job_scraper.py:129-133 | with no ledger, a filtered batch with rows but without an identity column raises KeyError on the first missing column, and nothing is written |
| Ledger.ColumnlessLedgerRaises | job_scraper.py:114-115 | a ledger written without any column cannot be read back: every batch that gets past the rule filter raises there, and the file stays as it is |
| Ledger.UnconsultedMergeSendsNothing | job_scraper.py:114-136 | when the engine frame has the identity columns or none, and the ledger is consultable or column-less, a merge that does not dedup returns the batch's rows without any column, an empty frame that is never e-mailed, or raises; it adds no identity and leaves the ledger consultable or column-less |
| Ledger.EmptyScrapeDisablesLedger | job_scraper.py:112-133 | as written: with no ledger, a batch with no column (rows or not), or with no rows but title and company, is returned without columns and written as a ledger with no column; every later merge then raises and leaves that file as it is |
| Ledger.HeaderOnlyLedgerReturnsAgain | job_scraper.py:114-133 | as written: an empty batch whose only column is `title` leaves a header-only ledger without the identity columns, and from then on every later batch's passing rows are returned, so e-mailed, and never recorded |
| Ledger.FilterNewJobsCorrected | job_scraper.py:129-133 | corrected `filter_new_jobs`: with no ledger, an empty result writes nothing |
| Ledger.CorrectedKeepsLedgerConsultable | job_scraper.py:114-133 | the corrected merge returns what the written one returns and records the same identities, and a consultable ledger stays consultable whatever the batch |
| Ledger.AbsentMergeIdentified | job_scraper.py:129-133 | with no ledger, a result with rows is written under a header holding the identity columns |
| Fetching.RetryFrom | job_scraper.py:140-159 | defines the retry loop from attempt `a` on; stated by the lemmas below |
| Fetching.Retry | job_scraper.py:138-159 | defines `scrape_with_retry` as the loop from the first attempt; stated by the lemmas below |
| Fetching.Failures | job_scraper.py:140-158 | n failed attempts are n calls, each followed by a 60-second pause |
| Fetching.RetryGivesUp | job_scraper.py:138-159 | "Max retries exceeded" comes exactly when all five attempts fail, after five calls each followed by a 60-second pause |
| Fetching.RetryFirstSuccess | job_scraper.py:140-155 | the first attempt that succeeds ends the loop with its frame, after one call and one pause for each earlier failure |
| Fetching.RetryBounded | job_scraper.py:139-158 | at most ten events, calls and pauses alternating from a call, so at most five calls and five pauses; every call has the same arguments and proxy |
| Fetching.FailuresCalls | job_scraper.py:143-153 | every call among failed attempts passes the same arguments and proxy |
| Fetching.RetryFromAllFail | job_scraper.py:140-159 | from any attempt on, if all remaining attempts fail, the loop pauses after each and raises |
| Fetching.RetryFromSuccess | job_scraper.py:140-158 | from any attempt on, the first success among the remaining attempts is returned |
| Fetching.FirstFrom | job_scraper.py:140-155 | if some attempt succeeds there is a first one |
| Fetching.ScrapeWithRetry | job_scraper.py:138-159 | the loop's result and its calls and pauses are those of `Retry` |
| Cycle.ProxyTypeOf | job_scraper.py:167 | the proxy type is SOCKS5 exactly when ":4145" occurs in the address |
| Cycle.RunTerm | job_scraper.py:165-181 | defines the loop body for the k-th term; stated by `RunTermFits`, `TermKeepsLedger` and `TermEmailsUnseen` |
| Cycle.JobScraperSpec | job_scraper.py:161-183 | defines `job_scraper`: no terms completes at once, no proxy raises at `next`, otherwise every term in order; stated by `JobScraperCompletes` and `NoListingEmailedTwice` |
| Cycle.CycleUpTo | job_scraper.py:164-181 | n terms processed leave n records |
| Cycle.JobScraper | job_scraper.py:161-183 | the pass, with the ledger updated in place, records and rewrites exactly as `JobScraperSpec` says |
| Cycle.RunTermFits | job_scraper.py:166-181 | the k-th term uses proxy k mod the proxy count, with its type; it e-mails only a non-empty frame; its scrape fails exactly when all five attempts fail, and then the ledger is untouched |
| Cycle.CycleRecordAt | job_scraper.py:164-181 | the k-th record of a pass is what the k-th term produces from the ledger the earlier terms left |
| Cycle.CycleRecords | job_scraper.py:163-181 | term isolation and round robin: every term leaves one record, in order, fitting that term, whatever happened to the terms before |
| Cycle.JobScraperCompletes | job_scraper.py:163-166 | a pass completes exactly when there are no terms or at least one proxy, then with one record per term; an empty proxy list stops it before any term |
| Cycle.TermKeepsLedger | job_scraper.py:169-181 | one term never removes an identity from the ledger |
| Cycle.FetchedFrame | job_scraper.py:140-155 | a successful scrape returns the frame of one of the first five attempts |
| Cycle.TermEmailsUnseen | job_scraper.py:170-176 | when the engine frames have the identity columns or none: what one term e-mails was not in the ledger before and is in it afterwards, and the ledger stays consultable or column-less |
| Cycle.CycleKeepsLedger | job_scraper.py:164-181 | the ledger never loses an identity during a pass |
| Cycle.EmailedIdsMember | job_scraper.py:175-176 | every record's e-mailed identities are among the identities e-mailed in the pass |
| Cycle.LedgerHoldsEmailed | job_scraper.py:164-181 | everything e-mailed so far is in the ledger, and nothing e-mailed was in the ledger before the pass |
| Cycle.EmailedPairApart | job_scraper.py:164-181 | the e-mails of two different terms of a pass share no identity |
| Cycle.NoListingEmailedTwice | job_scraper.py:161-183 | no listing is e-mailed twice: no e-mail of a pass holds an identity the ledger held before, and no two e-mails of the pass share an identity |
| WebApp.CleanItems | web_app.py:59 | cleaning comma-free pieces yields at most as many items, each non-empty, comma-free and without whitespace at either end |
| WebApp.CleanList | web_app.py:58-59 | a list field is stored as clean items, no more than its comma-separated pieces |
| WebApp.CleanItemsIsFilter | web_app.py:59 | the stored list is the stripped pieces that are not empty, in order |
| WebApp.CleanListInOrder | web_app.py:59 | the items keep the order of the pieces they came from |
| WebApp.CleanItemsOfClean | web_app.py:59 | clean items pass through cleaning unchanged |
| WebApp.StripClean | web_app.py:59 | a clean item strips to itself |
| WebApp.CleanListJoin | web_app.py:59 | clean items written with commas between them are stored as exactly those items |
| WebApp.Updated | web_app.py:57-66 | one loop-body step keeps the entry's key, and leaves an entry the form does not name as it is |
| WebApp.FormUpdate | web_app.py:56-70 | defines the loop of `update_config`: stop at the first rejection, otherwise save; stated by the lemmas below |
| WebApp.FirstRejected | web_app.py:56-64 | the error is returned at the first `interval_run` entry whose field `int()` cannot read, and only if there is one |
| WebApp.UpdateOnlyExistingKeys | web_app.py:56-57 | the keys and their order stay, form fields naming other keys are ignored, and keys the form does not name keep their values |
| WebApp.UpdatedEntry | web_app.py:58-66 | a named, accepted key gets clean items for a list key, the integer `int()` reads for `interval_run`, and the raw text otherwise |
| WebApp.UpdateAcceptsOrRejects | web_app.py:56-70 | the update is saved exactly when no `interval_run` field is rejected; it succeeds exactly when saved; otherwise the reply is the `interval_run` error |
| WebApp.SavedEntry | web_app.py:58-68 | a saved update stores clean items, the integer read, or the field's text, as the key's kind says |
| WebApp.ListFieldRoundTrip | web_app.py:58-59 | a list field written as clean items joined by commas is stored as those items |
| WebApp.IntervalRunStored | web_app.py:60-62 | an `interval_run` field holding a decimal numeral, with whitespace `int()` skips around it, is accepted and stored as that integer |
| WebApp.RejectedUpdateLeaksIntoDefaults | web_app.py:53-64 | as written, with no config.json, the form `search_terms=python, interval_run=soon` is rejected, yet every later load sees the search term |
| WebApp.SoonRejectedAtInterval | web_app.py:56-64 | on the defaults, that form is rejected at `interval_run`, the fifth key |
| WebApp.IntervalIsFifthKey | job_scraper.py:36-50 | `interval_run` is the fifth of the six default keys and no earlier key |
| WebApp.SoonSetsTerms | web_app.py:58-59 | before the rejection the loop has set `search_terms` to `["python"]` |
| WebApp.SoonIsNotAnInteger | web_app.py:62 | `int("soon")` raises |
| WebApp.PythonIsOneItem | web_app.py:59 | the field "python" is the list `["python"]` |
| WebApp.RejectedUpdateChangesNothing | web_app.py:53-64 | corrected: a rejected update changes neither config.json nor the defaults |
| WebApp.CorrectedAgreesWhenAccepted | web_app.py:53-70 | the corrected update replies as the written one does and, when accepted, leaves loads exactly as it does |
| WebApp.ConfigStore.LoadConfig | job_scraper.py:52-56 | load returns a new dict read from config.json, or the `DEFAULT_CONFIG` object itself |
| WebApp.ConfigStore.ApplyFormTo | web_app.py:56-66 | the loop changes the dict in place exactly as far as the first rejection, and reports where it stopped |
| WebApp.ConfigStore.UpdateEntry | web_app.py:57-66 | the loop body rejects exactly a non-integer `interval_run` and otherwise stores the updated entry |
| WebApp.ConfigStore.UpdateConfigAsWritten | web_app.py:51-70 | update_config as written, working on the loaded dict in place and so on `DEFAULT_CONFIG` itself when there is no config.json |
| WebApp.ConfigStore.UpdateConfig | web_app.py:51-70 | corrected update_config, working on a copy |
| WebApp.ApplyFormStep | web_app.py:56-66 | one more loop step updates exactly the next entry |
| WebApp.FirstRejectedAt | web_app.py:56-64 | the first rejected position is where the loop returns |
| WebApp.ScraperControl.StartScraper | web_app.py:72-82 | start succeeds exactly from stopped, with the fixed messages, and the flag is set afterwards |
| WebApp.ScraperControl.StopScraper | web_app.py:84-91 | stop succeeds exactly from running, with the fixed messages, and the flag is clear afterwards |
| WebApp.ScraperView | web_app.py:35-38 | defines the configuration `job_scraper` reads: the five keys present, `location` a text, the lists iterable; otherwise the pass raises |
| WebApp.SleepAfter | web_app.py:40-44 | the pause is the configured `interval_run` seconds or the 60-second error pause |
| WebApp.IterationSpec | web_app.py:29-44 | defines one `run_scraper` pass; stated by `JobScraperRunsIffSearchTerms` and `IterationSleeps` |
| WebApp.Lookup | web_app.py:35 | a key is found exactly when it is among the configuration's keys |
| WebApp.JobScraperRunsIffSearchTerms | web_app.py:35-38 | job_scraper runs exactly when `search_terms` is present and non-empty; otherwise the ledger is untouched and nothing is e-mailed |
| WebApp.IterationSleeps | web_app.py:40-44 | a pass sleeps `interval_run` seconds after a completed cycle with a usable interval, and 60 seconds when anything raised |
| WebApp.RunScraperIteration | web_app.py:29-44 | one loop pass loads the configuration, runs the pass against the ledger and picks the pause as `IterationSpec` says |

## Left out

- Threads: `start_scraper` spawns a thread running `run_scraper`, which rechecks the flag only between passes. Stop followed by start can therefore leave two loops running. The model keeps the flag (`ScraperControl`) and a single loop pass (`RunScraperIteration`), not the interleaving.
- Time: pauses are recorded, not slept. `time.sleep(config['interval_run'])` takes seconds, although the log line at web_app.py:40 calls them minutes. The model uses seconds, as the call does. A non-integer `interval_run` (float, boolean) is not one of the modelled value kinds.
- send_email (job_scraper.py:62-101) needs SMTP and the environment. It is recorded as the frame a term e-mails; its own failures are not modelled.
- The command-line `update_config` and `main` (job_scraper.py:185-223) are interactive console I/O and the `schedule` loop. They are not modelled.
- The `index` and `get_logs` routes, templates and logging only display state. They are not modelled.
- save_config and json.load: config.json is modelled as its decoded value. A malformed file and JSON values other than text, integer or list of texts are not modelled.
- WebApp.ScraperView: `location`, `filter_companies` and `filter_words` are read inside the per-term try in the source. A configuration missing one of them, or holding an unusable kind, makes each term fail and log in turn, with the proxy rotation still advancing. The model treats such a configuration as a pass that raises (`ScraperView` is None, then the 60-second pause). `Cycle.JobScraperSpec`, `WebApp.IterationSpec`, `WebApp.IterationSleeps` and `WebApp.RunScraperIteration` inherit this. `update_config` never removes keys, so only a hand-edited config.json reaches this case.
- A `proxies` form field is stored as text and then iterated character by character, and the model does so. A non-text proxy element is not one of the modelled value kinds.
- Text: `\w`, `lower()` and `isspace()` are modelled on ASCII letters, digits and underscore, and on the ASCII and Unicode whitespace characters. Unicode letters and digits outside ASCII are not modelled.
- Text.ParseInt: `int()` also accepts underscores between digits and non-ASCII decimal digits. The model rejects both.
- Ledger: pandas reads sent_jobs.csv back with type inference, and a NaN cell never equals itself in the identity comparison. The model compares identities as the text the code writes, with a missing cell as `None`.
- Cycle.NoListingEmailedTwice: holds of the model, not of every listing in the source. A listing whose title or company is missing, or is a text `read_csv` reads back as NA ("NA", "None", "null"), has a NaN cell in `sent_jobs_set`. Its tuple then never matches (job_scraper.py:124-128), so the source e-mails it again on every pass. The model's identities compare as written text, with `None == None`, so it proves no repeat where the source repeats. `LedgerHoldsEmailed`, `EmailedPairApart` and `SecondMergeFindsNothing` rest on the same abstraction.
- Cycle.JobScraper: the round-robin position lives in `job_scraper`'s own `itertools.cycle`, so each pass starts again at the first proxy. The model does the same, not a proxy index kept across passes.
- Ledger.FilterNewJobsCorrected: `Ledger.SentJobs` and the pass in `Cycle` follow the code as written. The corrected merge is stated beside the written one and proved to return what it returns from every consultable ledger, not threaded through the pass.

## Findings

| source | as written | input that shows it | evidently intended | confidence | as-written member | corrected member |
|---|---|---|---|---|---|---|
| job_scraper.py:52-56 with web_app.py:53-64 | Without config.json, `load_config` returns the `DEFAULT_CONFIG` object itself. `update_config` changes it in place entry by entry. A rejected `interval_run` returns the error after earlier keys were already assigned, so the defaults are changed although nothing was saved. | No config.json, form `search_terms=python`, `interval_run=soon`: the reply is the `interval_run` error, yet every later load (the page, the scraper loop) has `search_terms == ["python"]` | A rejected update changes nothing: work on a copy of the loaded configuration | high (not executed) | WebApp.RejectedUpdateLeaksIntoDefaults, WebApp.ConfigStore.UpdateConfigAsWritten | WebApp.RejectedUpdateChangesNothing, WebApp.ConfigStore.UpdateConfig |
| job_scraper.py:112-133 | With no sent_jobs.csv, a batch with no column at all (with or without rows), or with no rows but title and company, leaves the rule filter with no column. `drop_duplicates` lets an empty frame through, and `to_csv` writes a sent_jobs.csv with no header. Every later `read_csv` of it raises, so every later term of every later pass fails before its e-mail. | A fresh install whose first search term finds nothing, the engine returning a frame with no rows: the ledger is written without columns, and no listing is ever e-mailed again | With no ledger, an empty result writes nothing (or a ledger that can be read back), so that the next batch is deduplicated and e-mailed | high (not executed) | Ledger.EmptyScrapeDisablesLedger, Ledger.FilterNewJobsSpec | Ledger.CorrectedKeepsLedgerConsultable, Ledger.FilterNewJobsCorrected |

=== FILE: common.dfy ===
/** Option and Result values used for the missing values and the exceptions of the job scraper. */
module Common {

  /** A value that may be absent: a pandas cell that is NaN, a config file that does not exist. */
  datatype Option<+T> = None | Some(value: T)

  /** The outcome of a call that may raise instead of returning. */
  datatype Result<+T, +E> = Ok(value: T) | Err(error: E)
}

=== FILE: cycle.dfy ===
/**
 * job_scraper: one pass over the search terms. Each term takes the next proxy of a
 * round-robin over the proxy list, is scraped with retries, filtered against the
 * ledger, and reported by e-mail when something new is left. A failure inside one
 * term is logged and the next term goes on; an empty proxy list stops the pass.
 */
module Cycle {
  import opened Common
  import opened Text
  import opened Seqs
  import opened JobRules
  import opened Ledger
  import opened Fetching

  /** The configuration keys job_scraper reads. */
  datatype ScraperConfig = ScraperConfig(
    searchTerms: seq<string>,
    location: string,
    filterCompanies: seq<string>,
    filterWords: seq<string>,
    proxies: seq<string>)

  /** fetch(k)(a): what attempt a of the k-th search term yields from the scraping engine. */
  type Fetch = nat -> Outcomes

  /** proxy_type: SOCKS5 exactly when the address holds ":4145" somewhere. */
  function ProxyTypeOf(proxy: string): (t: ProxyType)
    ensures t == Socks5 <==> exists i :: OccursAt(proxy, ":4145", i)
  {
    ContainsIff(proxy, ":4145");
    if Contains(proxy, ":4145") then Socks5 else Http
  }

  /** How one search term ended: each failure is caught and logged. */
  datatype TermOutcome =
    | ScrapeFailed(fetchError: FetchError)
    | FilterFailed(filterError: FilterError)
    | NoNewJobs
    | Emailed(jobs: Frame)

  /** What happened for one search term: the proxy it used, the engine calls and pauses, the outcome. */
  datatype TermRecord = TermRecord(
    term: string,
    proxy: string,
    proxyType: ProxyType,
    events: seq<Event>,
    outcome: TermOutcome)

  datatype TermStep = TermStep(file: LedgerFile, record: TermRecord)

  /** The body of the loop for the k-th term, once its proxy is known. */
  function RunTerm(file: LedgerFile, cfg: ScraperConfig, fetch: Fetch, k: nat): TermStep
    requires k < |cfg.searchTerms| && |cfg.proxies| > 0
  {
    var term := cfg.searchTerms[k];
    var proxy := cfg.proxies[k % |cfg.proxies|];
    var proxyType := ProxyTypeOf(proxy);
    var fetched := Retry(CallFor(term, cfg.location, proxy, proxyType), fetch(k));
    match fetched.result
    case Err(e) => TermStep(file, TermRecord(term, proxy, proxyType, fetched.events, ScrapeFailed(e)))
    case Ok(jobs) =>
      var merged := FilterNewJobsSpec(file, jobs, Rules(cfg.filterCompanies, cfg.filterWords));
      var outcome :=
        match merged.result
        case Err(e) => FilterFailed(e)
        case Ok(newJobs) => if IsEmpty(newJobs) then NoNewJobs else Emailed(newJobs);
      TermStep(merged.file, TermRecord(term, proxy, proxyType, fetched.events, outcome))
  }

  datatype CycleState = CycleState(file: LedgerFile, records: seq<TermRecord>)

  /** The first n terms processed in order. */
  function CycleUpTo(file: LedgerFile, cfg: ScraperConfig, fetch: Fetch, n: nat): (s: CycleState)
    requires n <= |cfg.searchTerms| && |cfg.proxies| > 0
    ensures |s.records| == n
  {
    if n == 0 then CycleState(file, [])
    else
      var before := CycleUpTo(file, cfg, fetch, n - 1);
      var step := RunTerm(before.file, cfg, fetch, n - 1);
      CycleState(step.file, before.records + [step.record])
  }

  /**
   * A whole pass. completed is false when next(proxy_cycle) raised outside the
   * per-term handler, which happens at the first term when the proxy list is empty.
   */
  datatype CycleOutcome = CycleOutcome(completed: bool, state: CycleState)

  function JobScraperSpec(file: LedgerFile, cfg: ScraperConfig, fetch: Fetch): CycleOutcome {
    if |cfg.searchTerms| == 0 then CycleOutcome(true, CycleState(file, []))
    else if |cfg.proxies| == 0 then CycleOutcome(false, CycleState(file, []))
    else CycleOutcome(true, CycleUpTo(file, cfg, fetch, |cfg.searchTerms|))
  }

  /** job_scraper(config), with the ledger updated in place. */
  method JobScraper(ledger: SentJobs, cfg: ScraperConfig, fetch: Fetch) returns (completed: bool, records: seq<TermRecord>)
    modifies ledger
    ensures CycleOutcome(completed, CycleState(ledger.File(), records)) == JobScraperSpec(old(ledger.File()), cfg, fetch)
  {
    records := [];
    var next := 0;  // position of proxy_cycle
    for k := 0 to |cfg.searchTerms|
      invariant k > 0 ==> |cfg.proxies| > 0
      invariant |cfg.proxies| > 0 ==> next == k % |cfg.proxies|
      invariant |cfg.proxies| > 0 ==> CycleState(ledger.File(), records) == CycleUpTo(old(ledger.File()), cfg, fetch, k)
      invariant |cfg.proxies| == 0 ==> ledger.File() == old(ledger.File()) && records == []
    {
      if |cfg.proxies| == 0 {
        return false, [];
      }
      var term := cfg.searchTerms[k];
      var proxy := cfg.proxies[next];
      next := (next + 1) % |cfg.proxies|;
      NextPosition(k, |cfg.proxies|);
      var proxyType := if Contains(proxy, ":4145") then Socks5 else Http;
      var result, events := ScrapeWithRetry(term, cfg.location, proxy, proxyType, fetch(k));
      var outcome: TermOutcome;
      match result {
        case Err(e) =>
          outcome := ScrapeFailed(e);
        case Ok(jobs) =>
          var newJobs := ledger.FilterNewJobs(jobs, Rules(cfg.filterCompanies, cfg.filterWords));
          match newJobs {
            case Err(e) =>
              outcome := FilterFailed(e);
            case Ok(found) =>
              outcome := if IsEmpty(found) then NoNewJobs else Emailed(found);
          }
      }
      records := records + [TermRecord(term, proxy, proxyType, events, outcome)];
    }
    completed := true;
  }

  lemma NextPosition(k: nat, n: nat)
    requires n > 0
    ensures (k % n + 1) % n == (k + 1) % n
  {
    var q := k / n;
    if k % n + 1 < n {
      ModUnique(k + 1, n, q, k % n + 1);
      ModUnique(k % n + 1, n, 0, k % n + 1);
    } else {
      assert k + 1 == (q + 1) * n;
      ModUnique(k + 1, n, q + 1, 0);
      ModUnique(n, n, 1, 0);
    }
  }

  lemma ModUnique(m: int, n: int, q: int, r: int)
    requires n > 0 && 0 <= r < n && m == q * n + r
    ensures m % n == r
  {
    var q' := m / n;
    assert m == q' * n + m % n;
    if q' < q {
      MulAtLeast(q - q', n);
    } else if q' > q {
      MulAtLeast(q' - q, n);
    }
  }

  lemma MulAtLeast(d: int, n: int)
    requires d >= 1 && n > 0
    ensures d * n >= n
  {
    assert d * n == (d - 1) * n + n;
  }

  /** The record the k-th term leaves: its term, proxy, proxy type and outcome. */
  ghost predicate RecordFits(cfg: ScraperConfig, fetch: Fetch, k: nat, rec: TermRecord)
    requires k < |cfg.searchTerms| && |cfg.proxies| > 0
  {
    && rec.term == cfg.searchTerms[k]
    && rec.proxy == cfg.proxies[k % |cfg.proxies|]
    && rec.proxyType == ProxyTypeOf(rec.proxy)
    && (rec.outcome.Emailed? ==> !IsEmpty(rec.outcome.jobs))
    && (rec.outcome.ScrapeFailed? <==> AllFail(fetch(k)))
  }

  /** One term uses its round-robin proxy, e-mails only a non-empty frame, and a failed scrape leaves the ledger alone. */
  lemma RunTermFits(file: LedgerFile, cfg: ScraperConfig, fetch: Fetch, k: nat)
    requires k < |cfg.searchTerms| && |cfg.proxies| > 0
    ensures RecordFits(cfg, fetch, k, RunTerm(file, cfg, fetch, k).record)
    ensures RunTerm(file, cfg, fetch, k).record.outcome.ScrapeFailed? ==> RunTerm(file, cfg, fetch, k).file == file
  {
    var proxy := cfg.proxies[k % |cfg.proxies|];
    RetryGivesUp(CallFor(cfg.searchTerms[k], cfg.location, proxy, ProxyTypeOf(proxy)), fetch(k));
  }

  lemma {:induction false} CycleRecordAt(file: LedgerFile, cfg: ScraperConfig, fetch: Fetch, n: nat, k: nat)
    requires k < n <= |cfg.searchTerms| && |cfg.proxies| > 0
    ensures |CycleUpTo(file, cfg, fetch, n).records| == n
    ensures CycleUpTo(file, cfg, fetch, n).records[k] == RunTerm(CycleUpTo(file, cfg, fetch, k).file, cfg, fetch, k).record
    decreases n
  {
    if k < n - 1 {
      CycleRecordAt(file, cfg, fetch, n - 1, k);
    } else if n > 1 {
      CycleRecordAt(file, cfg, fetch, n - 1, 0);
    }
  }

  /**
   * Term isolation and round-robin: the first n terms each leave one record, in
   * order, whatever happened to the terms before them, and the k-th record fits the k-th term.
   */
  lemma CycleRecords(file: LedgerFile, cfg: ScraperConfig, fetch: Fetch, n: nat)
    requires n <= |cfg.searchTerms| && |cfg.proxies| > 0
    ensures var s := CycleUpTo(file, cfg, fetch, n);
      && |s.records| == n
      && forall k :: 0 <= k < n ==> RecordFits(cfg, fetch, k, s.records[k])
  {
    if n > 0 {
      CycleRecordAt(file, cfg, fetch, n, 0);
    }
    forall k | 0 <= k < n
      ensures RecordFits(cfg, fetch, k, CycleUpTo(file, cfg, fetch, n).records[k])
    {
      CycleRecordAt(file, cfg, fetch, n, k);
      RunTermFits(CycleUpTo(file, cfg, fetch, k).file, cfg, fetch, k);
    }
  }

  /** A completed pass has one record per term; it completes exactly when there are no terms or some proxy. */
  lemma JobScraperCompletes(file: LedgerFile, cfg: ScraperConfig, fetch: Fetch)
    ensures var out := JobScraperSpec(file, cfg, fetch);
      && (out.completed <==> |cfg.searchTerms| == 0 || |cfg.proxies| > 0)
      && (out.completed ==> |out.state.records| == |cfg.searchTerms|)
      && (!out.completed ==> out.state == CycleState(file, []))
  {
    if |cfg.searchTerms| > 0 && |cfg.proxies| > 0 {
      CycleRecords(file, cfg, fetch, |cfg.searchTerms|);
    }
  }

  /**
   * The ledger is consultable (absent, or with the identity columns), or it was
   * written without any column, so that every later read of it raises.
   */
  predicate Ready(file: LedgerFile) {
    Consultable(file) || Unreadable(file)
  }

  /**
   * Every frame the engine returns carries the identity columns, or no column
   * at all (the engine's frame for a search that found nothing).
   */
  ghost predicate FetchesIdentified(fetch: Fetch) {
    forall k: nat, a: nat :: fetch(k)(a).Some? ==>
      fetch(k)(a).value.columns == {} || HasIdentityColumns(fetch(k)(a).value.columns)
  }

  /** One term never removes an identity from the ledger. */
  lemma TermKeepsLedger(file: LedgerFile, cfg: ScraperConfig, fetch: Fetch, k: nat)
    requires k < |cfg.searchTerms| && |cfg.proxies| > 0
    ensures LedgerIds(file) <= LedgerIds(RunTerm(file, cfg, fetch, k).file)
  {
    var proxy := cfg.proxies[k % |cfg.proxies|];
    var fetched := Retry(CallFor(cfg.searchTerms[k], cfg.location, proxy, ProxyTypeOf(proxy)), fetch(k));
    if fetched.result.Ok? {
      LedgerAfterMerge(file, fetched.result.value, Rules(cfg.filterCompanies, cfg.filterWords));
    }
  }

  /** A successful scrape returns one of the frames the engine produced within the attempt budget. */
  lemma FetchedFrame(call: ScrapeCall, outcomes: Outcomes)
    ensures Retry(call, outcomes).result.Ok? ==>
      exists a: nat :: a < MaxRetries && outcomes(a) == Some(Retry(call, outcomes).result.value)
  {
    if !AllFail(outcomes) {
      var a := FirstFrom(outcomes, 0);
      RetryFirstSuccess(call, outcomes, a);
    }
  }

  /**
   * What one term e-mails was not in the ledger before and is in it afterwards,
   * and the ledger stays consultable or unreadable.
   */
  lemma TermEmailsUnseen(file: LedgerFile, cfg: ScraperConfig, fetch: Fetch, k: nat)
    requires k < |cfg.searchTerms| && |cfg.proxies| > 0
    requires Ready(file) && FetchesIdentified(fetch)
    ensures var step := RunTerm(file, cfg, fetch, k);
      && Ready(step.file)
      && RecordIds(step.record) !! LedgerIds(file)
      && RecordIds(step.record) <= LedgerIds(step.file)
  {
    var proxy := cfg.proxies[k % |cfg.proxies|];
    var call := CallFor(cfg.searchTerms[k], cfg.location, proxy, ProxyTypeOf(proxy));
    FetchedFrame(call, fetch(k));
    var fetched := Retry(call, fetch(k));
    if fetched.result.Ok? {
      var jobs, rules := fetched.result.value, Rules(cfg.filterCompanies, cfg.filterWords);
      if Dedups(file, jobs) {
        ConsultedMergeIsNew(file, jobs, rules);
      } else {
        UnconsultedMergeSendsNothing(file, jobs, rules);
      }
    }
  }

  /** The ledger never loses an identity during a pass. */
  lemma {:induction false} CycleKeepsLedger(file: LedgerFile, cfg: ScraperConfig, fetch: Fetch, n: nat)
    requires n <= |cfg.searchTerms| && |cfg.proxies| > 0
    ensures LedgerIds(file) <= LedgerIds(CycleUpTo(file, cfg, fetch, n).file)
  {
    if n > 0 {
      CycleKeepsLedger(file, cfg, fetch, n - 1);
      TermKeepsLedger(CycleUpTo(file, cfg, fetch, n - 1).file, cfg, fetch, n - 1);
    }
  }

  /** The identities a record e-mailed. */
  function RecordIds(rec: TermRecord): set<Identity> {
    if rec.outcome.Emailed? then Ids(rec.outcome.jobs.rows) else {}
  }

  /** The identities of every e-mail in a run of records. */
  function EmailedIds(records: seq<TermRecord>): set<Identity> {
    if records == [] then {}
    else EmailedIds(records[..|records| - 1]) + RecordIds(records[|records| - 1])
  }

  lemma {:induction false} EmailedIdsMember(records: seq<TermRecord>, k: int)
    requires 0 <= k < |records|
    ensures RecordIds(records[k]) <= EmailedIds(records)
    decreases |records|
  {
    if k < |records| - 1 {
      EmailedIdsMember(records[..|records| - 1], k);
    }
  }

  /** Two records e-mailed no common identity. */
  predicate EmailedApart(r1: TermRecord, r2: TermRecord) {
    RecordIds(r1) !! RecordIds(r2)
  }

  ghost predicate EmailedOnce(records: seq<TermRecord>) {
    forall i, j :: 0 <= i < j < |records| ==> EmailedApart(records[i], records[j])
  }

  /** What holds of a pass so far that started from ledger file0. */
  ghost predicate EmailInvariant(file0: LedgerFile, s: CycleState) {
    && Ready(s.file)
    && LedgerIds(file0) + EmailedIds(s.records) <= LedgerIds(s.file)
    && EmailedIds(s.records) !! LedgerIds(file0)
  }

  /**
   * With the ledger consulted at every term, everything e-mailed so far is in the
   * ledger, and nothing e-mailed was in the ledger before the pass.
   */
  lemma {:induction false} LedgerHoldsEmailed(file: LedgerFile, cfg: ScraperConfig, fetch: Fetch, n: nat)
    requires n <= |cfg.searchTerms| && |cfg.proxies| > 0
    requires Ready(file) && FetchesIdentified(fetch)
    ensures EmailInvariant(file, CycleUpTo(file, cfg, fetch, n))
  {
    if n > 0 {
      LedgerHoldsEmailed(file, cfg, fetch, n - 1);
      var before := CycleUpTo(file, cfg, fetch, n - 1);
      TermKeepsLedger(before.file, cfg, fetch, n - 1);
      TermEmailsUnseen(before.file, cfg, fetch, n - 1);
      var step := RunTerm(before.file, cfg, fetch, n - 1);
      EmailedIdsSnoc(before.records, step.record);
    }
  }

  lemma EmailedIdsSnoc(records: seq<TermRecord>, rec: TermRecord)
    ensures EmailedIds(records + [rec]) == EmailedIds(records) + RecordIds(rec)
  {
    var all := records + [rec];
    assert all[..|all| - 1] == records;
  }

  /** Two e-mails of one pass, for terms i < j, share no identity. */
  lemma EmailedPairApart(file: LedgerFile, cfg: ScraperConfig, fetch: Fetch, n: nat, i: nat, j: nat)
    requires i < j < n <= |cfg.searchTerms| && |cfg.proxies| > 0
    requires Ready(file) && FetchesIdentified(fetch)
    ensures EmailedApart(CycleUpTo(file, cfg, fetch, n).records[i], CycleUpTo(file, cfg, fetch, n).records[j])
  {
    LedgerHoldsEmailed(file, cfg, fetch, j);
    var sj := CycleUpTo(file, cfg, fetch, j);
    CycleRecordAt(file, cfg, fetch, n, i);
    CycleRecordAt(file, cfg, fetch, j, i);
    CycleRecordAt(file, cfg, fetch, n, j);
    EmailedIdsMember(sj.records, i);
    TermEmailsUnseen(sj.file, cfg, fetch, j);
    DisjointBySeen(RecordIds(sj.records[i]), RecordIds(RunTerm(sj.file, cfg, fetch, j).record), LedgerIds(sj.file));
  }

  /**
   * No listing is e-mailed twice: with the ledger consulted at every term, no
   * e-mail of a pass holds an identity the ledger held before it, and two e-mails
   * of one pass share no identity.
   */
  lemma NoListingEmailedTwice(file: LedgerFile, cfg: ScraperConfig, fetch: Fetch, n: nat)
    requires n <= |cfg.searchTerms| && |cfg.proxies| > 0
    requires Ready(file) && FetchesIdentified(fetch)
    ensures EmailedIds(CycleUpTo(file, cfg, fetch, n).records) !! LedgerIds(file)
    ensures EmailedOnce(CycleUpTo(file, cfg, fetch, n).records)
  {
    LedgerHoldsEmailed(file, cfg, fetch, n);
    var s := CycleUpTo(file, cfg, fetch, n);
    forall i, j | 0 <= i < j < |s.records|
      ensures EmailedApart(s.records[i], s.records[j])
    {
      CycleRecords(file, cfg, fetch, n);
      EmailedPairApart(file, cfg, fetch, n, i, j);
    }
  }

  lemma DisjointBySeen(a: set<Identity>, b: set<Identity>, seen: set<Identity>)
    requires a <= seen && b !! seen
    ensures a !! b
  {
  }
}

=== FILE: job_filter.dfy ===
/**
 * The per-listing exclusion rules of filter_new_jobs: a listing is dropped when a
 * word of its lower-cased title is a filter word, or when its lower-cased company
 * equals a lower-cased filter company.
 */
module JobRules {
  import opened Common
  import opened Text
  import opened Seqs

  /**
   * One row of the frame returned by the scraping engine. A NaN cell is None;
   * jobUrl is the text str(job_url) that the identity of a listing uses.
   */
  datatype Listing = Listing(
    title: Option<string>,
    company: Option<string>,
    jobUrl: string,
    location: Option<string>,
    datePosted: Option<string>)

  /** A pandas frame: its column labels and its rows. */
  datatype Frame = Frame(columns: set<string>, rows: seq<Listing>)

  /** filter_companies and filter_words of the configuration. */
  datatype Rules = Rules(filterCompanies: seq<string>, filterWords: seq<string>)

  /**
   * Why filter_new_jobs raises: a column the code reads is not in the frame
   * (pandas raises KeyError), or sent_jobs.csv holds no column at all (read_csv
   * raises EmptyDataError).
   */
  datatype FilterError = KeyError(column: string) | EmptyData

  /** frame.empty: no rows or no columns. */
  predicate IsEmpty(f: Frame) {
    f.rows == [] || f.columns == {}
  }

  /** str(v).lower() for a present value, "" for NaN. */
  function Normalize(v: Option<string>): string {
    match v
    case None => ""
    case Some(s) => Lower(s)
  }

  function LowerAll(xs: seq<string>): seq<string> {
    seq(|xs|, i requires 0 <= i < |xs| => Lower(xs[i]))
  }

  /** job_filter(row): true when the listing is kept. */
  predicate JobFilter(l: Listing, rules: Rules) {
    var titleWords := Tokens(Normalize(l.title));
    var company := Normalize(l.company);
    !(exists w :: w in rules.filterWords && w in titleWords)
    && company !in LowerAll(rules.filterCompanies)
  }

  /** The word rule, stated on the title text: some maximal run of word characters is a filter word. */
  ghost predicate TitleBlocked(l: Listing, rules: Rules) {
    var t := Normalize(l.title);
    exists i, j :: MaximalRun(t, i, j) && t[i..j] in rules.filterWords
  }

  /** The company rule: the lower-cased company equals some lower-cased filter company. */
  ghost predicate CompanyBlocked(l: Listing, rules: Rules) {
    exists c :: c in rules.filterCompanies && Lower(c) == Normalize(l.company)
  }

  /** A listing is kept exactly when neither the word rule nor the company rule blocks it. */
  lemma JobFilterIff(l: Listing, rules: Rules)
    ensures JobFilter(l, rules) <==> !TitleBlocked(l, rules) && !CompanyBlocked(l, rules)
  {
    var t := Normalize(l.title);
    if exists w :: w in rules.filterWords && w in Tokens(t) {
      var w :| w in rules.filterWords && w in Tokens(t);
      TokensAreMaximalRuns(t, w);
      assert TitleBlocked(l, rules);
    }
    if TitleBlocked(l, rules) {
      var i, j :| MaximalRun(t, i, j) && t[i..j] in rules.filterWords;
      TokensComplete(t, i, j);
    }
    var lowered := LowerAll(rules.filterCompanies);
    if Normalize(l.company) in lowered {
      var k :| 0 <= k < |lowered| && lowered[k] == Normalize(l.company);
      assert rules.filterCompanies[k] in rules.filterCompanies;
    }
    if CompanyBlocked(l, rules) {
      var c :| c in rules.filterCompanies && Lower(c) == Normalize(l.company);
      var k :| 0 <= k < |rules.filterCompanies| && rules.filterCompanies[k] == c;
      assert lowered[k] == Normalize(l.company);
    }
  }

  /**
   * Filter words are compared as written while the title is lower-cased, so a
   * filter word holding an upper-case letter never matches any title.
   */
  lemma UppercaseFilterWordNeverMatches(l: Listing, w: string, k: int)
    requires 0 <= k < |w| && IsUpper(w[k])
    ensures w !in Tokens(Normalize(l.title))
  {
    var t := Normalize(l.title);
    if w in Tokens(t) {
      TokenCharsFromText(t, w, k);
    }
  }

  /** A missing title yields no words: only the company rule can drop the listing. */
  lemma MissingTitleOnlyCompanyRule(l: Listing, rules: Rules)
    requires l.title.None?
    ensures JobFilter(l, rules) <==> !CompanyBlocked(l, rules)
  {
    JobFilterIff(l, rules);
    assert Normalize(l.title) == "";
  }

  /** A missing company is "": it is dropped exactly when some filter company lower-cases to "". */
  lemma MissingCompanyBlockedOnlyByEmpty(l: Listing, rules: Rules)
    requires l.company.None?
    ensures CompanyBlocked(l, rules) <==> exists c :: c in rules.filterCompanies && Lower(c) == ""
  {
  }

  function ListingTitled(title: string): Listing {
    Listing(Some(title), None, "", None, None)
  }

  /** Tokens match whole words: "intern" drops "Software Intern" ... */
  lemma InternDropsSoftwareIntern()
    ensures !JobFilter(ListingTitled("Software Intern"), Rules([], ["intern"]))
  {
    var t := Normalize(Some("Software Intern"));
    assert t[8] == ' ';
    assert t[9..15] == "intern" by {
      assert forall k :: 9 <= k < 15 ==> t[k] == LowerChar("Software Intern"[k]);
    }
    assert MaximalRun(t, 9, 15);
    TokensComplete(t, 9, 15);
  }

  /** ... but not "Internship". */
  lemma InternKeepsInternship()
    ensures JobFilter(ListingTitled("Internship"), Rules([], ["intern"]))
  {
    var u := Normalize(Some("Internship"));
    assert forall k :: 0 <= k < |u| ==> IsWordChar(u[k]);
    SingleWordTokens(u);
    assert u != "intern" by {
      assert |u| == 10;
    }
  }

  /** The rule-passing rows of a batch, in batch order. */
  function Passing(rows: seq<Listing>, rules: Rules): seq<Listing> {
    Filter(rows, l => JobFilter(l, rules))
  }

  /**
   * new_jobs[new_jobs.apply(job_filter, axis=1)]. job_filter reads row['title']
   * before row['company'], so a batch with rows and columns but without those
   * columns raises. On a batch with no row or no column, apply never runs
   * job_filter on a row: it probes it once on a row of NaN over the columns. When
   * both columns are there the probe returns a bool, apply yields an empty float
   * Series, and indexing with that selects no column at all; otherwise the probe
   * raises, apply hands back the frame itself, and indexing with it keeps the
   * frame, rows included.
   */
  function RuleFilter(batch: Frame, rules: Rules): Result<Frame, FilterError> {
    if IsEmpty(batch) then
      if "title" in batch.columns && "company" in batch.columns then Ok(Frame({}, [])) else Ok(batch)
    else if "title" !in batch.columns then Err(KeyError("title"))
    else if "company" !in batch.columns then Err(KeyError("company"))
    else Ok(Frame(batch.columns, Passing(batch.rows, rules)))
  }

  /**
   * The rule filter raises exactly when a batch with rows and columns lacks a
   * column it reads. Otherwise a batch without columns comes back whole, since
   * the rules never run on its rows; any other batch keeps exactly the passing
   * rows, every copy of them, in order. The columns are kept, except that a batch
   * with no rows but both columns loses every column.
   */
  lemma RuleFilterKeepsPassing(batch: Frame, rules: Rules)
    ensures RuleFilter(batch, rules).Err? <==>
              !IsEmpty(batch) && ("title" !in batch.columns || "company" !in batch.columns)
    ensures RuleFilter(batch, rules).Ok? ==>
              var kept := RuleFilter(batch, rules).value;
              && kept.columns ==
                   (if batch.rows == [] && "title" in batch.columns && "company" in batch.columns then {} else batch.columns)
              && IsSubsequence(kept.rows, batch.rows)
              && (batch.columns == {} ==> kept.rows == batch.rows)
              && (batch.columns != {} ==>
                    forall l :: multiset(kept.rows)[l] == if JobFilter(l, rules) then multiset(batch.rows)[l] else 0)
  {
    SubsequenceReflexive(batch.rows);
    FilterIsSubsequence(batch.rows, l => JobFilter(l, rules));
    forall l: Listing
      ensures multiset(Passing(batch.rows, rules))[l] == if JobFilter(l, rules) then multiset(batch.rows)[l] else 0
    {
      FilterCount(batch.rows, l => JobFilter(l, rules), l);
    }
  }

}

=== FILE: ledger.dfy ===
/**
 * The sent-jobs ledger (sent_jobs.csv) and filter_new_jobs: the rule filter, the
 * set difference against the identities already in the ledger, and the rewrite of
 * the ledger as old rows followed by the new ones, deduplicated keeping the last.
 */
module Ledger {
  import opened Common
  import opened Seqs
  import opened JobRules

  /** The dedup key (title, company, str(job_url)), compared with raw case. */
  datatype Identity = Identity(title: Option<string>, company: Option<string>, jobUrl: string)

  function IdOf(l: Listing): Identity {
    Identity(l.title, l.company, l.jobUrl)
  }

  function Ids(rows: seq<Listing>): set<Identity> {
    set l | l in rows :: IdOf(l)
  }

  /** unique_columns. */
  const IdentityColumns: seq<string> := ["title", "company", "job_url"]

  predicate HasIdentityColumns(columns: set<string>) {
    forall c :: c in IdentityColumns ==> c in columns
  }

  /** The first identity column missing from a frame. */
  function MissingColumn(columns: set<string>): string
    requires !HasIdentityColumns(columns)
  {
    if "title" !in columns then "title"
    else if "company" !in columns then "company"
    else "job_url"
  }

  /** The ledger file: absent, or a header and its rows. */
  datatype LedgerFile = Absent | Present(columns: set<string>, rows: seq<Listing>)

  function LedgerIds(file: LedgerFile): set<Identity> {
    match file
    case Absent => {}
    case Present(_, rows) => Ids(rows)
  }

  ghost predicate DistinctIds(rows: seq<Listing>) {
    forall i, j :: 0 <= i < j < |rows| ==> IdOf(rows[i]) != IdOf(rows[j])
  }

  lemma IdsCons(rows: seq<Listing>)
    requires rows != []
    ensures Ids(rows) == {IdOf(rows[0])} + Ids(rows[1..])
  {
    assert rows == [rows[0]] + rows[1..];
  }

  lemma IdsAppend(a: seq<Listing>, b: seq<Listing>)
    ensures Ids(a + b) == Ids(a) + Ids(b)
  {
    forall x | x in Ids(a + b) ensures x in Ids(a) + Ids(b) {
      var l :| l in a + b && IdOf(l) == x;
    }
  }

  /** drop_duplicates(subset=unique_columns, keep='last'). */
  function KeepLast(rows: seq<Listing>): (r: seq<Listing>)
    ensures Ids(r) == Ids(rows)
    ensures DistinctIds(r)
    decreases |rows|
  {
    if rows == [] then []
    else
      IdsCons(rows);
      var rest := KeepLast(rows[1..]);
      if IdOf(rows[0]) in Ids(rows[1..]) then rest
      else
        assert forall j :: 0 <= j < |rest| ==> IdOf(rest[j]) in Ids(rest);
        IdsCons([rows[0]] + rest);
        assert ([rows[0]] + rest)[1..] == rest;
        [rows[0]] + rest
  }

  /** drop_duplicates keeps the surviving rows in their original order. */
  lemma {:induction false} KeepLastInOrder(rows: seq<Listing>)
    ensures IsSubsequence(KeepLast(rows), rows)
    decreases |rows|
  {
    if rows != [] {
      var tail := rows[1..];
      KeepLastInOrder(tail);
      SubsequenceCons(KeepLast(tail), tail, rows[0]);
      assert rows == [rows[0]] + tail;
    }
  }

  /** Row i of rows is the last one with its identity. */
  ghost predicate IsLast(rows: seq<Listing>, i: int) {
    0 <= i < |rows| && forall j :: i < j < |rows| ==> IdOf(rows[j]) != IdOf(rows[i])
  }

  /** The rows kept are exactly the last occurrence of each identity. */
  lemma {:induction false} KeepLastKeepsLastOccurrences(rows: seq<Listing>, l: Listing)
    ensures l in KeepLast(rows) <==> exists i :: IsLast(rows, i) && rows[i] == l
    decreases |rows|
  {
    if rows != [] {
      var tail := rows[1..];
      KeepLastKeepsLastOccurrences(tail, l);
      forall i | 0 <= i < |tail|
        ensures IsLast(rows, i + 1) <==> IsLast(tail, i)
      {
        assert forall j :: i + 1 < j < |rows| ==> rows[j] == tail[j - 1];
      }
      if exists i :: IsLast(rows, i) && rows[i] == l {
        var i :| IsLast(rows, i) && rows[i] == l;
        if i > 0 {
          assert IsLast(tail, i - 1) && tail[i - 1] == l;
        }
      }
      if l in KeepLast(rows) && !(IdOf(rows[0]) !in Ids(tail) && l == rows[0]) {
        var i :| IsLast(tail, i) && tail[i] == l;
        assert IsLast(rows, i + 1) && rows[i + 1] == l;
      }
      if IdOf(rows[0]) !in Ids(tail) {
        assert forall j :: 0 < j < |rows| ==> IdOf(rows[j]) in Ids(tail) by {
          assert forall j :: 0 < j < |rows| ==> rows[j] in tail;
        }
        assert IsLast(rows, 0);
      }
    }
  }

  lemma KeepLastFromRows(rows: seq<Listing>, l: Listing)
    requires l in KeepLast(rows)
    ensures l in rows
  {
    KeepLastKeepsLastOccurrences(rows, l);
  }

  /** The rows whose identity is not in seen, in order. */
  function Unseen(rows: seq<Listing>, seen: set<Identity>): seq<Listing> {
    Filter(rows, l => IdOf(l) !in seen)
  }

  datatype MergeOutcome = MergeOutcome(result: Result<Frame, FilterError>, file: LedgerFile)

  /**
   * What filter_new_jobs returns (or raises) and what sent_jobs.csv holds afterwards.
   * A ledger file without any column cannot be read back. With a readable ledger, a
   * missing identity column in either frame skips the dedup and the write. Without
   * one, drop_duplicates hands back an empty frame as it is, so an empty result is
   * written as its header alone (a frame with no column writes no cell); a
   * non-empty one lacking an identity column makes
   * drop_duplicates raise before anything is written, and otherwise the new ledger
   * is the deduplicated result.
   */
  function FilterNewJobsSpec(file: LedgerFile, newJobs: Frame, rules: Rules): MergeOutcome {
    match RuleFilter(newJobs, rules)
    case Err(e) => MergeOutcome(Err(e), file)
    case Ok(passed) => MergePassed(file, passed)
  }

  /** The part of filter_new_jobs after the rule filter has kept the frame passed. */
  function MergePassed(file: LedgerFile, passed: Frame): MergeOutcome {
    match file
    case Present(columns, rows) =>
      if columns == {} then
        MergeOutcome(Err(EmptyData), file)
      else if !HasIdentityColumns(passed.columns) || !HasIdentityColumns(columns) then
        MergeOutcome(Ok(passed), file)
      else
        var unseen := Unseen(passed.rows, Ids(rows));
        MergeOutcome(Ok(Frame(passed.columns, unseen)), Present(columns + passed.columns, KeepLast(rows + unseen)))
    case Absent =>
      if IsEmpty(passed) then
        MergeOutcome(Ok(passed), Present(passed.columns, []))
      else if !HasIdentityColumns(passed.columns) then
        MergeOutcome(Err(KeyError(MissingColumn(passed.columns))), file)
      else
        MergeOutcome(Ok(passed), Present(passed.columns, KeepLast(passed.rows)))
  }

  /** The ledger is absent or carries the identity columns, so a merge can consult it. */
  predicate Consultable(file: LedgerFile) {
    file.Absent? || HasIdentityColumns(file.columns)
  }

  /** sent_jobs.csv exists but holds no column: every read of it raises. */
  predicate Unreadable(file: LedgerFile) {
    file.Present? && file.columns == {}
  }

  /** A non-empty batch and the ledger both carry the identity columns, so the ledger is consulted and rewritten. */
  predicate Dedups(file: LedgerFile, newJobs: Frame) {
    newJobs.rows != [] && HasIdentityColumns(newJobs.columns) && Consultable(file)
  }

  lemma IdentityColumnsNamed(columns: set<string>)
    requires HasIdentityColumns(columns)
    ensures "title" in columns && "company" in columns && "job_url" in columns
  {
    assert IdentityColumns[0] in columns && IdentityColumns[1] in columns && IdentityColumns[2] in columns;
  }

  /**
   * When the ledger is consulted, the returned rows are exactly the rule-passing
   * rows whose identity is not in the ledger: every copy of them, in batch order.
   * Without a ledger file that is every rule-passing row.
   */
  lemma NewJobsAreUnseenPassing(file: LedgerFile, newJobs: Frame, rules: Rules)
    requires Dedups(file, newJobs)
    ensures var out := FilterNewJobsSpec(file, newJobs, rules);
      && out.result.Ok?
      && out.result.value.columns == newJobs.columns
      && IsSubsequence(out.result.value.rows, newJobs.rows)
      && forall l :: multiset(out.result.value.rows)[l] ==
           if JobFilter(l, rules) && IdOf(l) !in LedgerIds(file) then multiset(newJobs.rows)[l] else 0
  {
    MergeReturnsUnseen(file, newJobs, rules);
    UnseenPassing(newJobs.rows, rules, LedgerIds(file));
  }

  /** The rule-passing rows whose identity is not in seen: every copy of them, in order. */
  lemma UnseenPassing(rows: seq<Listing>, rules: Rules, seen: set<Identity>)
    ensures IsSubsequence(Unseen(Passing(rows, rules), seen), rows)
    ensures forall l :: multiset(Unseen(Passing(rows, rules), seen))[l] ==
              if JobFilter(l, rules) && IdOf(l) !in seen then multiset(rows)[l] else 0
  {
    var passed := Passing(rows, rules);
    FilterIsSubsequence(rows, l => JobFilter(l, rules));
    FilterIsSubsequence(passed, l => IdOf(l) !in seen);
    SubsequenceTransitive(Unseen(passed, seen), passed, rows);
    forall l ensures multiset(Unseen(passed, seen))[l] ==
      if JobFilter(l, rules) && IdOf(l) !in seen then multiset(rows)[l] else 0
    {
      FilterCount(rows, l => JobFilter(l, rules), l);
      FilterCount(passed, l => IdOf(l) !in seen, l);
    }
  }

  /**
   * The ledger never loses an identity. When the ledger is consulted it is rewritten
   * with no duplicate identity, holding the old identities plus the returned ones
   * and a header that keeps the old columns. Otherwise it is left as it was, except
   * that with no ledger an empty result is written as the new ledger, as it stands.
   */
  lemma LedgerAfterMerge(file: LedgerFile, newJobs: Frame, rules: Rules)
    ensures var out := FilterNewJobsSpec(file, newJobs, rules);
      && LedgerIds(file) <= LedgerIds(out.file)
      && (Dedups(file, newJobs) ==>
            && out.result.Ok?
            && out.file.Present?
            && DistinctIds(out.file.rows)
            && LedgerIds(out.file) == LedgerIds(file) + Ids(out.result.value.rows)
            && (file.Present? ==> file.columns <= out.file.columns)
            && newJobs.columns <= out.file.columns)
      && (!Dedups(file, newJobs) ==>
            || out.file == file
            || (&& file.Absent?
                && out.result.Ok?
                && IsEmpty(out.result.value)
                && out.file == Present(out.result.value.columns, [])))
  {
    var out := FilterNewJobsSpec(file, newJobs, rules);
    RuleFilterKeepsPassing(newJobs, rules);
    if Dedups(file, newJobs) {
      IdentityColumnsNamed(newJobs.columns);
      if file.Present? {
        IdentityColumnsNamed(file.columns);
        IdsAppend(file.rows, out.result.value.rows);
      }
    }
  }

  /** A merge that consults the ledger returns only identities the ledger did not hold, and records them. */
  lemma ConsultedMergeIsNew(file: LedgerFile, newJobs: Frame, rules: Rules)
    requires Dedups(file, newJobs)
    ensures var out := FilterNewJobsSpec(file, newJobs, rules);
      && out.result.Ok?
      && Dedups(out.file, newJobs)
      && Ids(out.result.value.rows) !! LedgerIds(file)
      && LedgerIds(out.file) == LedgerIds(file) + Ids(out.result.value.rows)
  {
    LedgerAfterMerge(file, newJobs, rules);
    MergeReturnsUnseen(file, newJobs, rules);
    UnseenIdsNew(Passing(newJobs.rows, rules), LedgerIds(file));
  }

  lemma UnseenIdsNew(rows: seq<Listing>, seen: set<Identity>)
    ensures Ids(Unseen(rows, seen)) !! seen
  {
    forall x | x in Ids(Unseen(rows, seen)) ensures x !in seen {
      var l :| l in Unseen(rows, seen) && IdOf(l) == x;
    }
  }

  /**
   * A listing the company or word rule removes is returned exactly when its batch
   * has no column, so that the rules never ran on it, and the ledger never gains
   * it: what the ledger holds afterwards was in it before or was returned.
   */
  lemma RemovedNeverReturnedOrWritten(file: LedgerFile, newJobs: Frame, rules: Rules, l: Listing)
    requires l in newJobs.rows && !JobFilter(l, rules)
    ensures var out := FilterNewJobsSpec(file, newJobs, rules);
      && (out.result.Ok? ==> (l in out.result.value.rows <==> newJobs.columns == {}))
      && (out.file.Present? && l in out.file.rows ==> file.Present? && l in file.rows)
  {
    if RuleFilter(newJobs, rules).Ok? {
      var passed := RuleFilter(newJobs, rules).value;
      if newJobs.columns == {} {
        assert passed == newJobs;
      } else {
        assert passed.rows == Passing(newJobs.rows, rules);
        MergeKeepsOut(file, passed, l);
      }
    }
  }

  /** A row the merge is not handed is neither returned nor newly written. */
  lemma MergeKeepsOut(file: LedgerFile, passed: Frame, l: Listing)
    requires l !in passed.rows
    ensures var out := MergePassed(file, passed);
      && (out.result.Ok? ==> l !in out.result.value.rows)
      && (out.file.Present? && l in out.file.rows ==> file.Present? && l in file.rows)
  {
    match file
    case Absent =>
      if l in KeepLast(passed.rows) {
        KeepLastFromRows(passed.rows, l);
      }
    case Present(columns, rows) =>
      var all := rows + Unseen(passed.rows, Ids(rows));
      if l in KeepLast(all) {
        KeepLastFromRows(all, l);
      }
  }

  /** When the ledger is consulted, the returned frame is the rule-passing rows not yet in it. */
  lemma MergeReturnsUnseen(file: LedgerFile, newJobs: Frame, rules: Rules)
    requires Dedups(file, newJobs)
    ensures FilterNewJobsSpec(file, newJobs, rules).result ==
              Ok(Frame(newJobs.columns, Unseen(Passing(newJobs.rows, rules), LedgerIds(file))))
  {
    IdentityColumnsNamed(newJobs.columns);
    if file.Absent? {
      FilterAll(Passing(newJobs.rows, rules), l => IdOf(l) !in LedgerIds(file));
    } else {
      IdentityColumnsNamed(file.columns);
    }
  }

  lemma {:induction false} UnseenAllSeen(rows: seq<Listing>, seen: set<Identity>)
    requires forall l :: l in rows ==> IdOf(l) in seen
    ensures Unseen(rows, seen) == []
    decreases |rows|
  {
    if rows != [] {
      UnseenAllSeen(rows[..|rows| - 1], seen);
      FilterSnoc(rows[..|rows| - 1], rows[|rows| - 1], l => IdOf(l) !in seen);
      assert rows == rows[..|rows| - 1] + [rows[|rows| - 1]];
    }
  }

  /** Feeding the same batch again after a merge that consulted the ledger returns nothing. */
  lemma SecondMergeFindsNothing(file: LedgerFile, newJobs: Frame, rules: Rules)
    requires Dedups(file, newJobs)
    ensures var first := FilterNewJobsSpec(file, newJobs, rules);
      FilterNewJobsSpec(first.file, newJobs, rules).result == Ok(Frame(newJobs.columns, []))
  {
    var first := FilterNewJobsSpec(file, newJobs, rules);
    LedgerAfterMerge(file, newJobs, rules);
    MergeReturnsUnseen(file, newJobs, rules);
    MergeReturnsUnseen(first.file, newJobs, rules);
    var passed := Passing(newJobs.rows, rules);
    var returned := Unseen(passed, LedgerIds(file));
    var seen := LedgerIds(first.file);
    assert seen == LedgerIds(file) + Ids(returned);
    forall l | l in passed ensures IdOf(l) in seen {
      if IdOf(l) !in LedgerIds(file) {
        assert l in returned;
      }
    }
    UnseenAllSeen(passed, seen);
  }

  /**
   * A merge that does not consult the ledger, fed a frame the engine can return
   * (no column at all, or the identity columns), returns the batch's rows without
   * any column, so an empty frame, or raises; it records no identity, and leaves
   * the ledger consultable or unreadable.
   */
  lemma UnconsultedMergeSendsNothing(file: LedgerFile, newJobs: Frame, rules: Rules)
    requires newJobs.columns == {} || HasIdentityColumns(newJobs.columns)
    requires Consultable(file) || Unreadable(file)
    requires !Dedups(file, newJobs)
    ensures var out := FilterNewJobsSpec(file, newJobs, rules);
      && (out.result.Ok? ==> out.result.value == Frame({}, newJobs.rows))
      && LedgerIds(out.file) == LedgerIds(file)
      && (Consultable(out.file) || Unreadable(out.file))
  {
    RuleFilterKeepsPassing(newJobs, rules);
    if newJobs.columns != {} {
      IdentityColumnsNamed(newJobs.columns);
    }
    if file.Present? && file.columns != {} {
      IdentityColumnsNamed(file.columns);
    }
  }

  /**
   * A scrape that finds nothing (no column at all, or no row but both the title and
   * company columns) before sent_jobs.csv exists writes a ledger with no column;
   * from then on every merge raises and the ledger never changes again.
   */
  lemma EmptyScrapeDisablesLedger(batch: Frame, rules: Rules, later: Frame)
    requires batch.columns == {} || (batch.rows == [] && "title" in batch.columns && "company" in batch.columns)
    ensures var first := FilterNewJobsSpec(Absent, batch, rules);
      && first.result == Ok(Frame({}, batch.rows))
      && first.file == Present({}, [])
      && Unreadable(first.file)
      && FilterNewJobsSpec(first.file, later, rules).result.Err?
      && FilterNewJobsSpec(first.file, later, rules).file == first.file
  {
  }

  /**
   * A scrape with no row whose columns lack the company before sent_jobs.csv exists
   * writes a header-only ledger without the identity columns; from then on every
   * non-empty batch is returned in full, every time, and never recorded.
   */
  lemma HeaderOnlyLedgerReturnsAgain(rules: Rules, batch: Frame)
    requires batch.rows != [] && HasIdentityColumns(batch.columns)
    ensures var first := FilterNewJobsSpec(Absent, Frame({"title"}, []), rules);
      && first.file == Present({"title"}, [])
      && FilterNewJobsSpec(first.file, batch, rules) ==
           MergeOutcome(Ok(Frame(batch.columns, Passing(batch.rows, rules))), first.file)
  {
    IdentityColumnsNamed(batch.columns);
    assert "company" in IdentityColumns by {
      assert IdentityColumns[1] == "company";
    }
    assert "company" !in {"title"} by {
      assert "company"[0] != "title"[0];
    }
  }

  /**
   * With a readable ledger, a missing identity column in the filtered batch or in
   * the ledger skips the dedup: the rule-filtered batch is returned as it is and
   * sent_jobs.csv is left alone.
   */
  lemma SkippedDedupReturnsPassed(file: LedgerFile, newJobs: Frame, rules: Rules)
    requires file.Present? && file.columns != {} && RuleFilter(newJobs, rules).Ok?
    requires !HasIdentityColumns(RuleFilter(newJobs, rules).value.columns) || !HasIdentityColumns(file.columns)
    ensures FilterNewJobsSpec(file, newJobs, rules) == MergeOutcome(RuleFilter(newJobs, rules), file)
  {
  }

  /**
   * With no ledger, a filtered batch that has rows but lacks an identity column
   * makes drop_duplicates raise KeyError on the first missing column, and nothing
   * is written.
   */
  lemma AbsentUnidentifiedRaises(newJobs: Frame, rules: Rules)
    requires RuleFilter(newJobs, rules).Ok?
    requires var passed := RuleFilter(newJobs, rules).value;
      !IsEmpty(passed) && !HasIdentityColumns(passed.columns)
    ensures var passed := RuleFilter(newJobs, rules).value;
      FilterNewJobsSpec(Absent, newJobs, rules) == MergeOutcome(Err(KeyError(MissingColumn(passed.columns))), Absent)
  {
  }

  /** A ledger written without any column cannot be read back: every batch that gets past the rule filter raises there. */
  lemma ColumnlessLedgerRaises(rows: seq<Listing>, newJobs: Frame, rules: Rules)
    requires RuleFilter(newJobs, rules).Ok?
    ensures FilterNewJobsSpec(Present({}, rows), newJobs, rules) == MergeOutcome(Err(EmptyData), Present({}, rows))
  {
  }

  /** filter_new_jobs as evidently intended: with no ledger, an empty result writes nothing. */
  function FilterNewJobsCorrected(file: LedgerFile, newJobs: Frame, rules: Rules): MergeOutcome {
    var out := FilterNewJobsSpec(file, newJobs, rules);
    if file.Absent? && out.result.Ok? && IsEmpty(out.result.value) then MergeOutcome(out.result, file) else out
  }

  /**
   * The corrected merge returns what the written one returns and records the same
   * identities, and a consultable ledger stays consultable whatever the batch.
   */
  lemma CorrectedKeepsLedgerConsultable(file: LedgerFile, newJobs: Frame, rules: Rules)
    requires Consultable(file)
    ensures var fixed := FilterNewJobsCorrected(file, newJobs, rules);
      var written := FilterNewJobsSpec(file, newJobs, rules);
      && fixed.result == written.result
      && LedgerIds(fixed.file) == LedgerIds(written.file)
      && Consultable(fixed.file)
  {
    var written := FilterNewJobsSpec(file, newJobs, rules);
    if written.result.Ok? {
      if file.Present? {
        IdentityColumnsNamed(file.columns);
      } else if IsEmpty(written.result.value) {
        assert written.file.rows == [];
      } else {
        AbsentMergeIdentified(newJobs, rules);
      }
    }
  }

  /** With no ledger, a batch that leaves rows is written out under its own header, identity columns included. */
  lemma AbsentMergeIdentified(newJobs: Frame, rules: Rules)
    requires var out := FilterNewJobsSpec(Absent, newJobs, rules); out.result.Ok? && !IsEmpty(out.result.value)
    ensures HasIdentityColumns(FilterNewJobsSpec(Absent, newJobs, rules).file.columns)
  {
  }

  /**
   * The ledger as the class the scraper updates in place: whether sent_jobs.csv
   * exists, its header and its rows.
   */
  class SentJobs {
    var fileExists: bool
    var columns: set<string>
    var rows: seq<Listing>

    function File(): LedgerFile
      reads this
    {
      if fileExists then Present(columns, rows) else Absent
    }

    constructor (file: LedgerFile)
      ensures File() == file
    {
      fileExists := file.Present?;
      columns := if file.Present? then file.columns else {};
      rows := if file.Present? then file.rows else [];
    }

    /** filter_new_jobs(new_jobs, filter_companies, filter_words). */
    method FilterNewJobs(newJobs: Frame, rules: Rules) returns (result: Result<Frame, FilterError>)
      modifies this
      ensures MergeOutcome(result, File()) == FilterNewJobsSpec(old(File()), newJobs, rules)
    {
      var passed: Frame;
      match RuleFilter(newJobs, rules) {
        case Err(e) => return Err(e);
        case Ok(f) => passed := f;
      }
      if fileExists {
        if columns == {} {
          return Err(EmptyData);
        }
        for n := 0 to |IdentityColumns|
          invariant forall m :: 0 <= m < n ==> IdentityColumns[m] in passed.columns && IdentityColumns[m] in columns
        {
          var col := IdentityColumns[n];
          if col !in passed.columns || col !in columns {
            return Ok(passed);
          }
        }
        var filtered := Unseen(passed.rows, Ids(rows));
        rows := KeepLast(rows + filtered);
        columns := columns + passed.columns;
        result := Ok(Frame(passed.columns, filtered));
      } else {
        if IsEmpty(passed) {
          fileExists, columns, rows := true, passed.columns, [];
          return Ok(passed);
        }
        if !HasIdentityColumns(passed.columns) {
          return Err(KeyError(MissingColumn(passed.columns)));
        }
        fileExists, columns, rows := true, passed.columns, KeepLast(passed.rows);
        result := Ok(passed);
      }
    }
  }
}

=== FILE: retry.dfy ===
/**
 * scrape_with_retry: up to five calls of the scraping engine with one fixed proxy,
 * a 60-second pause after every failed call, and "Max retries exceeded" when all
 * five fail. The engine is an oracle: outcomes(a) is what attempt a yields.
 */
module Fetching {
  import opened Common
  import opened JobRules

  datatype ProxyType = Http | Socks5

  /** The sites every scrape_jobs call asks for. */
  const Sites: seq<string> := ["indeed", "linkedin", "zip_recruiter", "glassdoor"]
  const ResultsWanted: nat := 100
  const HoursOld: nat := 72
  const CountryIndeed: string := "USA"

  /** The arguments of one scrape_jobs call. */
  datatype ScrapeCall = ScrapeCall(
    sites: seq<string>,
    searchTerm: string,
    location: string,
    resultsWanted: nat,
    hoursOld: nat,
    countryIndeed: string,
    linkedinFetchDescription: bool,
    proxy: string,
    proxyType: ProxyType)

  function CallFor(searchTerm: string, location: string, proxy: string, proxyType: ProxyType): ScrapeCall {
    ScrapeCall(Sites, searchTerm, location, ResultsWanted, HoursOld, CountryIndeed, true, proxy, proxyType)
  }

  const MaxRetries: nat := 5
  const RetryDelaySeconds: nat := 60

  /** What the retry loop does that the outside world sees: engine calls and pauses. */
  datatype Event = Attempt(call: ScrapeCall) | Sleep(seconds: nat)

  /** The exception raised once every attempt has failed. */
  datatype FetchError = MaxRetriesExceeded

  /** outcomes(a): the frame attempt a returns, or None when scrape_jobs raises. */
  type Outcomes = nat -> Option<Frame>

  datatype RetryOutcome = RetryOutcome(result: Result<Frame, FetchError>, events: seq<Event>)

  /** n failed attempts: each call followed by its pause. */
  function Failures(call: ScrapeCall, n: nat): (evs: seq<Event>)
    ensures |evs| == 2 * n
    ensures forall i :: 0 <= i < |evs| ==>
              evs[i] == if i % 2 == 0 then Attempt(call) else Sleep(RetryDelaySeconds)
  {
    if n == 0 then [] else [Attempt(call), Sleep(RetryDelaySeconds)] + Failures(call, n - 1)
  }

  /** The loop from attempt a on. */
  function RetryFrom(call: ScrapeCall, outcomes: Outcomes, a: nat): RetryOutcome
    requires a <= MaxRetries
    decreases MaxRetries - a
  {
    if a == MaxRetries then RetryOutcome(Err(MaxRetriesExceeded), [])
    else match outcomes(a)
      case Some(jobs) => RetryOutcome(Ok(jobs), [Attempt(call)])
      case None =>
        var rest := RetryFrom(call, outcomes, a + 1);
        RetryOutcome(rest.result, [Attempt(call), Sleep(RetryDelaySeconds)] + rest.events)
  }

  function Retry(call: ScrapeCall, outcomes: Outcomes): RetryOutcome {
    RetryFrom(call, outcomes, 0)
  }

  /** Attempt a is the first one that succeeds. */
  ghost predicate FirstSuccess(outcomes: Outcomes, a: nat) {
    a < MaxRetries && outcomes(a).Some? && forall b :: 0 <= b < a ==> outcomes(b).None?
  }

  ghost predicate AllFail(outcomes: Outcomes) {
    forall a :: 0 <= a < MaxRetries ==> outcomes(a).None?
  }

  lemma FailuresSnoc(call: ScrapeCall, n: nat)
    ensures Failures(call, n) + [Attempt(call), Sleep(RetryDelaySeconds)] == Failures(call, n + 1)
  {
    var l := Failures(call, n) + [Attempt(call), Sleep(RetryDelaySeconds)];
    assert forall i :: 0 <= i < |l| ==> l[i] == Failures(call, n + 1)[i];
  }

  /** When attempts a and on all fail, the loop pauses after each and then raises. */
  lemma {:induction false} RetryFromAllFail(call: ScrapeCall, outcomes: Outcomes, a: nat)
    requires a <= MaxRetries
    requires forall b :: a <= b < MaxRetries ==> outcomes(b).None?
    ensures RetryFrom(call, outcomes, a) == RetryOutcome(Err(MaxRetriesExceeded), Failures(call, MaxRetries - a))
    decreases MaxRetries - a
  {
    if a < MaxRetries {
      RetryFromAllFail(call, outcomes, a + 1);
    }
  }

  /** When attempt s is the first success from a on, the loop returns its frame. */
  lemma {:induction false} RetryFromSuccess(call: ScrapeCall, outcomes: Outcomes, a: nat, s: nat)
    requires a <= s < MaxRetries && outcomes(s).Some?
    requires forall b :: a <= b < s ==> outcomes(b).None?
    ensures RetryFrom(call, outcomes, a) == RetryOutcome(Ok(outcomes(s).value), Failures(call, s - a) + [Attempt(call)])
    decreases s - a
  {
    if a < s {
      RetryFromSuccess(call, outcomes, a + 1, s);
    }
  }

  /** The error comes exactly when all five attempts fail, after five calls each followed by a 60-second pause. */
  lemma RetryGivesUp(call: ScrapeCall, outcomes: Outcomes)
    ensures var r := Retry(call, outcomes);
      && (r.result.Err? <==> AllFail(outcomes))
      && (AllFail(outcomes) ==> r.events == Failures(call, MaxRetries))
  {
    if AllFail(outcomes) {
      RetryFromAllFail(call, outcomes, 0);
    } else {
      var s := FirstFrom(outcomes, 0);
      RetryFromSuccess(call, outcomes, 0, s);
    }
  }

  /** The first attempt that succeeds ends the loop with its frame, after a call and a pause per earlier failure. */
  lemma RetryFirstSuccess(call: ScrapeCall, outcomes: Outcomes, a: nat)
    requires FirstSuccess(outcomes, a)
    ensures Retry(call, outcomes) == RetryOutcome(Ok(outcomes(a).value), Failures(call, a) + [Attempt(call)])
  {
    RetryFromSuccess(call, outcomes, 0, a);
  }

  /**
   * At most five attempts and five pauses, calls and pauses alternating from a call,
   * and every attempt makes the same call.
   */
  lemma RetryBounded(call: ScrapeCall, outcomes: Outcomes)
    ensures var r := Retry(call, outcomes);
      && (forall e :: e in r.events && e.Attempt? ==> e.call == call)
      && |r.events| <= 2 * MaxRetries
      && forall i :: 0 <= i < |r.events| ==> (r.events[i].Attempt? <==> i % 2 == 0)
  {
    if AllFail(outcomes) {
      RetryFromAllFail(call, outcomes, 0);
      FailuresCalls(call, MaxRetries);
    } else {
      var s := FirstFrom(outcomes, 0);
      RetryFromSuccess(call, outcomes, 0, s);
      FailuresCalls(call, s);
      var evs := Failures(call, s) + [Attempt(call)];
      assert forall i :: 0 <= i < 2 * s ==> evs[i] == Failures(call, s)[i];
    }
  }

  /** Every call among n failed attempts is the same call. */
  lemma {:induction false} FailuresCalls(call: ScrapeCall, n: nat)
    ensures forall e :: e in Failures(call, n) && e.Attempt? ==> e.call == call
  {
    if n > 0 {
      FailuresCalls(call, n - 1);
      assert Failures(call, n) == [Attempt(call), Sleep(RetryDelaySeconds)] + Failures(call, n - 1);
    }
  }

  /** Some attempt succeeds: then there is a first one. */
  lemma {:induction false} FirstFrom(outcomes: Outcomes, a: nat) returns (s: nat)
    requires a <= MaxRetries
    requires forall b :: 0 <= b < a ==> outcomes(b).None?
    requires exists b :: a <= b < MaxRetries && outcomes(b).Some?
    ensures FirstSuccess(outcomes, s)
    decreases MaxRetries - a
  {
    if outcomes(a).Some? {
      s := a;
    } else {
      s := FirstFrom(outcomes, a + 1);
    }
  }

  /** scrape_with_retry(search_term, location, proxy, proxy_type). */
  method ScrapeWithRetry(searchTerm: string, location: string, proxy: string, proxyType: ProxyType, outcomes: Outcomes)
    returns (result: Result<Frame, FetchError>, events: seq<Event>)
    ensures RetryOutcome(result, events) == Retry(CallFor(searchTerm, location, proxy, proxyType), outcomes)
  {
    var call := CallFor(searchTerm, location, proxy, proxyType);
    events := [];
    for attempt := 0 to MaxRetries
      invariant events == Failures(call, attempt)
      invariant forall b :: 0 <= b < attempt ==> outcomes(b).None?
    {
      events := events + [Attempt(call)];
      var jobs := outcomes(attempt);
      if jobs.Some? {
        RetryFromSuccess(call, outcomes, 0, attempt);
        return Ok(jobs.value), events;
      }
      events := events + [Sleep(RetryDelaySeconds)];
      FailuresSnoc(call, attempt);
    }
    RetryFromAllFail(call, outcomes, 0);
    result := Err(MaxRetriesExceeded);
  }
}

=== FILE: seqs.dfy ===
/** Order-preserving selection of rows, as a boolean mask over a pandas frame does it. */
module Seqs {

  /** The elements of s that satisfy p, in their original order. */
  function Filter<T(==,!new)>(s: seq<T>, p: T -> bool): (r: seq<T>)
    ensures |r| <= |s|
    ensures forall x :: x in r <==> x in s && p(x)
    decreases |s|
  {
    if s == [] then []
    else Filter(s[..|s| - 1], p) + (if p(s[|s| - 1]) then [s[|s| - 1]] else [])
  }

  lemma FilterSnoc<T(!new)>(s: seq<T>, x: T, p: T -> bool)
    ensures Filter(s + [x], p) == Filter(s, p) + (if p(x) then [x] else [])
  {
    assert (s + [x])[..|s|] == s;
  }

  /** A predicate that holds throughout selects everything. */
  lemma {:induction false} FilterAll<T(!new)>(s: seq<T>, p: T -> bool)
    requires forall x :: x in s ==> p(x)
    ensures Filter(s, p) == s
    decreases |s|
  {
    if s != [] {
      var init, last := s[..|s| - 1], s[|s| - 1];
      assert s == init + [last];
      assert forall x :: x in init ==> x in s;
      FilterAll(init, p);
      assert p(last);
    }
  }

  /** Filtering keeps every copy of a selected element and no copy of the others. */
  lemma {:induction false} FilterCount<T(!new)>(s: seq<T>, p: T -> bool, x: T)
    ensures multiset(Filter(s, p))[x] == if p(x) then multiset(s)[x] else 0
    decreases |s|
  {
    if s != [] {
      var init := s[..|s| - 1];
      FilterCount(init, p, x);
      assert s == init + [s[|s| - 1]];
      assert multiset(s) == multiset(init) + multiset{s[|s| - 1]};
    }
  }

  /** a is obtained from b by deleting elements: the order of what is kept is the order in b. */
  ghost predicate IsSubsequence<T>(a: seq<T>, b: seq<T>)
    decreases |b|
  {
    a == [] ||
    (b != [] &&
      ((a[|a| - 1] == b[|b| - 1] && IsSubsequence(a[..|a| - 1], b[..|b| - 1]))
       || IsSubsequence(a, b[..|b| - 1])))
  }

  lemma {:induction false} FilterIsSubsequence<T(!new)>(s: seq<T>, p: T -> bool)
    ensures IsSubsequence(Filter(s, p), s)
    decreases |s|
  {
    if s != [] {
      var init := s[..|s| - 1];
      FilterIsSubsequence(init, p);
      var r := Filter(s, p);
      if p(s[|s| - 1]) {
        assert r[..|r| - 1] == Filter(init, p);
      } else {
        assert r == Filter(init, p);
      }
    }
  }

  /** Putting the same element in front of both keeps a subsequence; putting it in front of b alone too. */
  lemma {:induction false} SubsequenceCons<T>(a: seq<T>, b: seq<T>, x: T)
    requires IsSubsequence(a, b)
    ensures IsSubsequence([x] + a, [x] + b)
    ensures IsSubsequence(a, [x] + b)
    decreases |b|
  {
    var xa, xb := [x] + a, [x] + b;
    if b == [] {
      assert xa == [x] && xb == [x];
      assert xa[..0] == [] && xb[..0] == [];
    } else {
      var b' := b[..|b| - 1];
      assert xb[..|xb| - 1] == [x] + b';
      if a == [] {
        SubsequenceCons(a, b', x);
        assert xa == [x];
      } else if a[|a| - 1] == b[|b| - 1] && IsSubsequence(a[..|a| - 1], b') {
        SubsequenceCons(a[..|a| - 1], b', x);
        assert xa[..|xa| - 1] == [x] + a[..|a| - 1];
      } else {
        SubsequenceCons(a, b', x);
      }
    }
  }

  lemma {:induction false} SubsequenceReflexive<T>(a: seq<T>)
    ensures IsSubsequence(a, a)
    decreases |a|
  {
    if a != [] {
      SubsequenceReflexive(a[..|a| - 1]);
    }
  }

  lemma {:induction false} SubsequenceTransitive<T>(a: seq<T>, b: seq<T>, c: seq<T>)
    requires IsSubsequence(a, b) && IsSubsequence(b, c)
    ensures IsSubsequence(a, c)
    decreases |c|
  {
    if a != [] {
      assert b != [] && c != [];
      var b', c' := b[..|b| - 1], c[..|c| - 1];
      if b[|b| - 1] == c[|c| - 1] && IsSubsequence(b', c') {
        if a[|a| - 1] == b[|b| - 1] && IsSubsequence(a[..|a| - 1], b') {
          SubsequenceTransitive(a[..|a| - 1], b', c');
        } else {
          SubsequenceTransitive(a, b', c');
        }
      } else {
        SubsequenceTransitive(a, b, c');
      }
    }
  }
}

=== FILE: text.dfy ===
/**
 * The string operations the scraper relies on: Python's str.lower(), the regular
 * expression \b\w+\b, the substring test `in`, str.strip(), str.split(',') and int().
 * Characters are Unicode scalar values; case folding and \w are the ASCII subset of
 * Python's Unicode tables, while whitespace is Python's full str.isspace() set.
 */
module Text {
  import opened Common

  // ---------------------------------------------------------------------------
  // Case and word characters
  // ---------------------------------------------------------------------------

  predicate IsUpper(c: char) { 'A' <= c <= 'Z' }

  /** A character matched by \w (letters, digits and underscore, ASCII subset). */
  predicate IsWordChar(c: char) {
    ('a' <= c <= 'z') || IsUpper(c) || ('0' <= c <= '9') || c == '_'
  }

  function LowerChar(c: char): char {
    if IsUpper(c) then (c as int + 32) as char else c
  }

  /** str.lower(): upper-case letters become lower-case, everything else is kept. */
  function Lower(s: string): (r: string)
    ensures |r| == |s|
    ensures forall i :: 0 <= i < |r| ==> !IsUpper(r[i])
    ensures forall i :: 0 <= i < |s| && !IsUpper(s[i]) ==> r[i] == s[i]
    ensures forall i :: 0 <= i < |s| && IsUpper(s[i]) ==> r[i] as int == s[i] as int + 32
    ensures forall i :: 0 <= i < |s| ==> (IsWordChar(r[i]) <==> IsWordChar(s[i]))
  {
    seq(|s|, i requires 0 <= i < |s| => LowerChar(s[i]))
  }

  // ---------------------------------------------------------------------------
  // Word tokens: re.findall(r'\b\w+\b', s)
  // ---------------------------------------------------------------------------

  /** The length of the longest prefix of s made of word characters. */
  function WordPrefixLength(s: string): (n: nat)
    ensures n <= |s|
    ensures forall k :: 0 <= k < n ==> IsWordChar(s[k])
    ensures n == |s| || !IsWordChar(s[n])
    decreases |s|
  {
    if s == [] || !IsWordChar(s[0]) then 0 else 1 + WordPrefixLength(s[1..])
  }

  /** The maximal runs of word characters of s, left to right. */
  function Tokens(s: string): (ts: seq<string>)
    decreases |s|
  {
    if s == [] then []
    else if !IsWordChar(s[0]) then Tokens(s[1..])
    else
      var n := WordPrefixLength(s);
      [s[..n]] + Tokens(s[n..])
  }

  /** s[i..j] is a non-empty run of word characters with no word character on either side. */
  ghost predicate MaximalRun(s: string, i: int, j: int) {
    && 0 <= i < j <= |s|
    && (forall k :: i <= k < j ==> IsWordChar(s[k]))
    && (i == 0 || !IsWordChar(s[i - 1]))
    && (j == |s| || !IsWordChar(s[j]))
  }

  /** t is one of the matches of \b\w+\b in s. */
  ghost predicate IsToken(s: string, t: string) {
    exists i, j :: MaximalRun(s, i, j) && s[i..j] == t
  }

  /** Moving a run between s and its suffix s[d..]. */
  lemma RunShift(s: string, d: int, i: int, j: int)
    requires 0 <= d <= |s|
    ensures MaximalRun(s[d..], i, j) && (i > 0 || d == 0 || !IsWordChar(s[d - 1]))
            ==> MaximalRun(s, d + i, d + j) && s[d..][i..j] == s[d + i..d + j]
    ensures MaximalRun(s, d + i, d + j) && 0 <= i ==> MaximalRun(s[d..], i, j) && s[d..][i..j] == s[d + i..d + j]
  {
    if 0 <= i <= j <= |s| - d {
      assert s[d..][i..j] == s[d + i..d + j];
      assert forall k :: i <= k < j ==> s[d..][k] == s[d + k];
      assert j < |s| - d ==> s[d..][j] == s[d + j];
      assert 0 < i ==> s[d..][i - 1] == s[d + i - 1];
    }
  }

  lemma {:induction false} TokensSound(s: string, t: string)
    requires t in Tokens(s)
    ensures IsToken(s, t)
    decreases |s|, 1
  {
    if !IsWordChar(s[0]) {
      TokensSoundAfterSpace(s, t);
    } else if t == s[..WordPrefixLength(s)] {
      var n := WordPrefixLength(s);
      assert MaximalRun(s, 0, n);
      assert s[0..n] == t;
    } else {
      TokensSoundAfterWord(s, t);
    }
  }

  lemma {:induction false} TokensSoundAfterSpace(s: string, t: string)
    requires s != [] && !IsWordChar(s[0]) && t in Tokens(s)
    ensures IsToken(s, t)
    decreases |s|, 0
  {
    TokensOfNonWordStartOnly(s, t);
    TokensSound(s[1..], t);
    var i, j :| MaximalRun(s[1..], i, j) && s[1..][i..j] == t;
    RunShift(s, 1, i, j);
    assert MaximalRun(s, 1 + i, 1 + j) && s[1 + i..1 + j] == t;
  }

  lemma {:induction false} TokensSoundAfterWord(s: string, t: string)
    requires s != [] && IsWordChar(s[0]) && t in Tokens(s) && t != s[..WordPrefixLength(s)]
    ensures IsToken(s, t)
    decreases |s|, 0
  {
    var n := WordPrefixLength(s);
    TokensAfterPrefixOnly(s, t);
    TokensSound(s[n..], t);
    var i, j :| MaximalRun(s[n..], i, j) && s[n..][i..j] == t;
    assert i > 0 by {
      assert s[n..][0] == s[n];
    }
    RunShift(s, n, i, j);
    assert MaximalRun(s, n + i, n + j) && s[n + i..n + j] == t;
  }

  lemma TokensOfNonWordStartOnly(s: string, t: string)
    requires s != [] && !IsWordChar(s[0]) && t in Tokens(s)
    ensures t in Tokens(s[1..])
  {
  }

  lemma TokensAfterPrefixOnly(s: string, t: string)
    requires s != [] && IsWordChar(s[0]) && t in Tokens(s) && t != s[..WordPrefixLength(s)]
    ensures t in Tokens(s[WordPrefixLength(s)..])
  {
    var n := WordPrefixLength(s);
    assert Tokens(s) == [s[..n]] + Tokens(s[n..]);
  }

  lemma {:induction false} TokensComplete(s: string, i: int, j: int)
    requires MaximalRun(s, i, j)
    ensures s[i..j] in Tokens(s)
    decreases |s|, 1
  {
    if !IsWordChar(s[0]) {
      TokensCompleteAfterSpace(s, i, j);
    } else if i == 0 {
      PrefixRunIsToken(s, j);
    } else {
      TokensCompleteAfterWord(s, i, j);
    }
  }

  /** s starts with a character that is not a word character: the run is a run of s[1..]. */
  lemma {:induction false} TokensCompleteAfterSpace(s: string, i: int, j: int)
    requires MaximalRun(s, i, j) && !IsWordChar(s[0])
    ensures s[i..j] in Tokens(s)
    decreases |s|, 0
  {
    RunInSuffix(s, 1, i, j);
    TokensComplete(s[1..], i - 1, j - 1);
    TokensOfNonWordStart(s, s[1..][i - 1..j - 1]);
  }

  /** s starts with a word and the run comes later: it is a run of what follows that word. */
  lemma {:induction false} TokensCompleteAfterWord(s: string, i: int, j: int)
    requires MaximalRun(s, i, j) && IsWordChar(s[0]) && i > 0
    ensures s[i..j] in Tokens(s)
    decreases |s|, 0
  {
    var n := WordPrefixLength(s);
    RunAfterPrefix(s, i, j);
    RunInSuffix(s, n, i, j);
    TokensComplete(s[n..], i - n, j - n);
    TokensAfterPrefix(s, s[n..][i - n..j - n]);
  }

  lemma TokensOfNonWordStart(s: string, t: string)
    requires s != [] && !IsWordChar(s[0]) && t in Tokens(s[1..])
    ensures t in Tokens(s)
  {
  }

  lemma TokensAfterPrefix(s: string, t: string)
    requires s != [] && IsWordChar(s[0]) && t in Tokens(s[WordPrefixLength(s)..])
    ensures t in Tokens(s)
  {
    var n := WordPrefixLength(s);
    assert Tokens(s) == [s[..n]] + Tokens(s[n..]);
  }

  /** A maximal run at the start of s is its first token. */
  lemma PrefixRunIsToken(s: string, j: int)
    requires MaximalRun(s, 0, j)
    ensures s[0..j] in Tokens(s)
  {
    var n := WordPrefixLength(s);
    assert j == n;
    assert Tokens(s) == [s[..n]] + Tokens(s[n..]);
    assert s[0..j] == s[..n];
  }

  /** A maximal run of s past position d is a maximal run of s[d..]. */
  lemma RunInSuffix(s: string, d: int, i: int, j: int)
    requires MaximalRun(s, i, j) && 0 <= d <= i
    ensures MaximalRun(s[d..], i - d, j - d) && s[d..][i - d..j - d] == s[i..j]
  {
    RunShift(s, d, i - d, j - d);
  }

  /** A maximal run that does not start s starts after the word-character prefix and the character ending it. */
  lemma RunAfterPrefix(s: string, i: int, j: int)
    requires MaximalRun(s, i, j) && i > 0
    ensures i - 1 >= WordPrefixLength(s)
  {
  }

  /** The tokens are exactly the matches of \b\w+\b: the maximal word-character runs. */
  lemma TokensAreMaximalRuns(s: string, t: string)
    ensures t in Tokens(s) <==> IsToken(s, t)
  {
    if t in Tokens(s) {
      TokensSound(s, t);
    }
    if IsToken(s, t) {
      var i, j :| MaximalRun(s, i, j) && s[i..j] == t;
      TokensComplete(s, i, j);
    }
  }

  /** Every character of a token is a character of the text it came from. */
  lemma TokenCharsFromText(s: string, t: string, k: int)
    requires t in Tokens(s) && 0 <= k < |t|
    ensures t[k] in s && t != []
  {
    TokensSound(s, t);
    var i, j :| MaximalRun(s, i, j) && s[i..j] == t;
    assert t[k] == s[i + k];
  }

  /** A text made only of word characters is a single token: "intern" is not a token of "internship". */
  lemma {:induction false} SingleWordTokens(s: string)
    requires s != [] && forall k :: 0 <= k < |s| ==> IsWordChar(s[k])
    ensures Tokens(s) == [s]
  {
    var n := WordPrefixLength(s);
    assert n == |s|;
    assert s[..n] == s;
    assert s[n..] == [];
  }

  // ---------------------------------------------------------------------------
  // Substring test: `p in s`
  // ---------------------------------------------------------------------------

  predicate StartsWith(s: string, p: string) {
    |p| <= |s| && s[..|p|] == p
  }

  predicate Contains(s: string, p: string)
    decreases |s|
  {
    StartsWith(s, p) || (s != [] && Contains(s[1..], p))
  }

  ghost predicate OccursAt(s: string, p: string, i: int) {
    0 <= i && i + |p| <= |s| && s[i..i + |p|] == p
  }

  /** `p in s` holds exactly when p occurs at some position of s. */
  lemma {:induction false} ContainsIff(s: string, p: string)
    ensures Contains(s, p) <==> exists i :: OccursAt(s, p, i)
    decreases |s|
  {
    if StartsWith(s, p) {
      assert OccursAt(s, p, 0);
    } else if s == [] {
    } else {
      ContainsIff(s[1..], p);
      if Contains(s[1..], p) {
        var i :| OccursAt(s[1..], p, i);
        assert s[i + 1..i + 1 + |p|] == s[1..][i..i + |p|];
        assert OccursAt(s, p, i + 1);
      }
      if exists i :: OccursAt(s, p, i) {
        var i :| OccursAt(s, p, i);
        assert i > 0;
        assert s[1..][i - 1..i - 1 + |p|] == s[i..i + |p|];
        assert OccursAt(s[1..], p, i - 1);
      }
    }
  }

  // ---------------------------------------------------------------------------
  // str.strip()
  // ---------------------------------------------------------------------------

  /** Python's str.isspace() for one character. */
  predicate IsSpace(c: char) {
    || ('\t' <= c <= '\r')
    || ('\U{1c}' <= c <= ' ')
    || c == '\U{85}' || c == '\U{a0}' || c == '\U{1680}'
    || ('\U{2000}' <= c <= '\U{200a}')
    || c == '\U{2028}' || c == '\U{2029}' || c == '\U{202f}' || c == '\U{205f}' || c == '\U{3000}'
  }

  function StripLeft(s: string): string
    decreases |s|
  {
    if s != [] && IsSpace(s[0]) then StripLeft(s[1..]) else s
  }

  function StripRight(s: string): string
    decreases |s|
  {
    if s != [] && IsSpace(s[|s| - 1]) then StripRight(s[..|s| - 1]) else s
  }

  /** lstrip() removes a prefix of whitespace and stops at a character that is not whitespace. */
  lemma {:induction false} StripLeftShape(s: string)
    ensures var r := StripLeft(s);
      && |r| <= |s| && r == s[|s| - |r|..]
      && (forall k :: 0 <= k < |s| - |r| ==> IsSpace(s[k]))
      && (r == [] || !IsSpace(r[0]))
    decreases |s|
  {
    if s != [] && IsSpace(s[0]) {
      StripLeftShape(s[1..]);
    }
  }

  /** rstrip() removes a suffix of whitespace and stops at a character that is not whitespace. */
  lemma {:induction false} StripRightShape(s: string)
    ensures var r := StripRight(s);
      && |r| <= |s| && r == s[..|r|]
      && (forall k :: |r| <= k < |s| ==> IsSpace(s[k]))
      && (r == [] || !IsSpace(r[|r| - 1]))
    decreases |s|
  {
    if s != [] && IsSpace(s[|s| - 1]) {
      StripRightShape(s[..|s| - 1]);
    }
  }

  /** r is s[i..i+|r|] and everything of s outside that slice is whitespace. */
  ghost predicate StrippedAt(s: string, r: string, i: int) {
    && 0 <= i && i + |r| <= |s| && s[i..i + |r|] == r
    && (forall k :: 0 <= k < i ==> IsSpace(s[k]))
    && (forall k :: i + |r| <= k < |s| ==> IsSpace(s[k]))
  }

  /** str.strip(). */
  function Strip(s: string): string {
    StripRight(StripLeft(s))
  }

  /** strip() leaves a slice of s with only whitespace around it, and neither end of it is whitespace. */
  lemma StripShape(s: string)
    ensures var r := Strip(s);
      && (r == [] || (!IsSpace(r[0]) && !IsSpace(r[|r| - 1])))
      && exists i :: StrippedAt(s, r, i)
  {
    var l := StripLeft(s);
    StripLeftShape(s);
    StripRightShape(l);
    StripBothAt(s, l, StripRight(l));
  }

  /** Stripping the left and then the right end leaves a slice of s with only whitespace around it. */
  lemma StripBothAt(s: string, l: string, r: string)
    requires |l| <= |s| && l == s[|s| - |l|..]
    requires forall k :: 0 <= k < |s| - |l| ==> IsSpace(s[k])
    requires |r| <= |l| && r == l[..|r|]
    requires forall k :: |r| <= k < |l| ==> IsSpace(l[k])
    ensures StrippedAt(s, r, |s| - |l|)
  {
    var d := |s| - |l|;
    assert s[d..d + |r|] == l[..|r|];
    forall k | d + |r| <= k < |s| ensures IsSpace(s[k]) {
      assert s[k] == l[k - d];
    }
  }

  lemma {:induction false} StripLeftOfPadded(a: string, t: string)
    requires forall k :: 0 <= k < |a| ==> IsSpace(a[k])
    requires t != [] && !IsSpace(t[0])
    ensures StripLeft(a + t) == t
    decreases |a|
  {
    if a != [] {
      assert (a + t)[1..] == a[1..] + t;
      StripLeftOfPadded(a[1..], t);
    }
  }

  lemma {:induction false} StripRightOfPadded(t: string, b: string)
    requires forall k :: 0 <= k < |b| ==> IsSpace(b[k])
    requires t != [] && !IsSpace(t[|t| - 1])
    ensures StripRight(t + b) == t
    decreases |b|
  {
    if b != [] {
      assert (t + b)[..|t + b| - 1] == t + b[..|b| - 1];
      StripRightOfPadded(t, b[..|b| - 1]);
    } else {
      assert t + b == t;
    }
  }

  /** Whitespace around a text whose ends are not whitespace is exactly what strip() removes. */
  lemma StripOfPadded(a: string, t: string, b: string)
    requires forall k :: 0 <= k < |a| ==> IsSpace(a[k])
    requires forall k :: 0 <= k < |b| ==> IsSpace(b[k])
    requires t != [] && !IsSpace(t[0]) && !IsSpace(t[|t| - 1])
    ensures Strip(a + t + b) == t
  {
    assert a + t + b == a + (t + b);
    StripLeftOfPadded(a, t + b);
    StripRightOfPadded(t, b);
  }

  // ---------------------------------------------------------------------------
  // str.split(sep) and its inverse sep.join(parts)
  // ---------------------------------------------------------------------------

  /** str.split(sep) with an explicit one-character separator. */
  function Split(s: string, sep: char): (parts: seq<string>)
    ensures |parts| >= 1
    ensures forall i :: 0 <= i < |parts| ==> sep !in parts[i]
    decreases |s|
  {
    if s == [] then [""]
    else
      var rest := Split(s[1..], sep);
      if s[0] == sep then [""] + rest
      else [[s[0]] + rest[0]] + rest[1..]
  }

  /** sep.join(parts). */
  function Join(parts: seq<string>, sep: char): string
    decreases |parts|
  {
    if parts == [] then ""
    else if |parts| == 1 then parts[0]
    else parts[0] + [sep] + Join(parts[1..], sep)
  }

  /** Joining the pieces of a split with the same separator gives back the text. */
  lemma {:induction false} JoinSplit(s: string, sep: char)
    ensures Join(Split(s, sep), sep) == s
    decreases |s|
  {
    if s != [] {
      var rest := Split(s[1..], sep);
      JoinSplit(s[1..], sep);
      if s[0] == sep {
        assert ([""] + rest)[1..] == rest;
        assert s == [sep] + s[1..];
      } else {
        var parts := [[s[0]] + rest[0]] + rest[1..];
        if |rest| == 1 {
          assert Join(parts, sep) == [s[0]] + rest[0];
        } else {
          assert parts[1..] == rest[1..];
          assert Join(rest, sep) == rest[0] + [sep] + Join(rest[1..], sep);
          assert Join(parts, sep) == [s[0]] + rest[0] + [sep] + Join(rest[1..], sep);
        }
        assert s == [s[0]] + s[1..];
      }
    }
  }

  lemma {:induction false} SplitAfterPiece(a: string, t: string, sep: char)
    requires sep !in a
    ensures Split(a + t, sep) == [a + Split(t, sep)[0]] + Split(t, sep)[1..]
    decreases |a|
  {
    var parts := Split(t, sep);
    if a != [] {
      assert (a + t)[1..] == a[1..] + t;
      SplitAfterPiece(a[1..], t, sep);
      var rest := Split(a[1..] + t, sep);
      assert rest[0] == a[1..] + parts[0] && rest[1..] == parts[1..];
      assert [a[0]] + rest[0] == a + parts[0];
    } else {
      assert a + t == t;
      assert a + parts[0] == parts[0];
      assert parts == [parts[0]] + parts[1..];
    }
  }

  /** Splitting a join of separator-free pieces gives back the pieces. */
  lemma {:induction false} SplitJoin(parts: seq<string>, sep: char)
    requires |parts| >= 1
    requires forall i :: 0 <= i < |parts| ==> sep !in parts[i]
    ensures Split(Join(parts, sep), sep) == parts
    decreases |parts|
  {
    if |parts| == 1 {
      SplitAfterPiece(parts[0], "", sep);
      assert parts[0] + "" == parts[0];
    } else {
      var tail := Join(parts[1..], sep);
      SplitJoin(parts[1..], sep);
      assert Split([sep] + tail, sep) == [""] + parts[1..];
      assert Join(parts, sep) == parts[0] + ([sep] + tail);
      SplitAfterPiece(parts[0], [sep] + tail, sep);
      assert parts[0] + "" == parts[0];
      assert parts == [parts[0]] + parts[1..];
    }
  }

  // ---------------------------------------------------------------------------
  // int(s) for a text: optional surrounding whitespace, optional sign, ASCII digits
  // ---------------------------------------------------------------------------

  predicate IsDigit(c: char) { '0' <= c <= '9' }

  predicate IsDigits(s: string) {
    |s| > 0 && forall i :: 0 <= i < |s| ==> IsDigit(s[i])
  }

  function DigitsValue(s: string): nat
    requires forall i :: 0 <= i < |s| ==> IsDigit(s[i])
    decreases |s|
  {
    if s == [] then 0
    else
      assert IsDigit(s[|s| - 1]);
      10 * DigitsValue(s[..|s| - 1]) + (s[|s| - 1] as int - '0' as int)
  }

  /**
   * The four ASCII information separators U+001C-U+001F: str.isspace() holds of
   * them, but int() neither skips them nor reads them, so it raises on them.
   */
  predicate IsInfoSeparator(c: char) { '\U{1c}' <= c <= '\U{1f}' }

  /** The whitespace int() skips around a numeral. */
  predicate IsIntSpace(c: char) { IsSpace(c) && !IsInfoSeparator(c) }

  /**
   * int(s), None when Python raises ValueError. int() skips the other whitespace
   * around the numeral; an information separator anywhere makes it raise.
   */
  function ParseInt(s: string): Option<int> {
    if exists k | 0 <= k < |s| :: IsInfoSeparator(s[k]) then None
    else ParseNumeral(Strip(s))
  }

  /** An optional sign followed by one or more ASCII digits. */
  predicate IsNumeral(t: string) {
    IsDigits(t) || (|t| > 0 && (t[0] == '+' || t[0] == '-') && IsDigits(t[1..]))
  }

  /** t is s[i..i+|t|] and everything of s outside that slice is whitespace int() skips. */
  ghost predicate IntPaddedAt(s: string, t: string, i: int) {
    && 0 <= i && i + |t| <= |s| && s[i..i + |t|] == t
    && (forall k :: 0 <= k < i ==> IsIntSpace(s[k]))
    && (forall k :: i + |t| <= k < |s| ==> IsIntSpace(s[k]))
  }

  /** A numeral holds no whitespace at all. */
  lemma NumeralHasNoSpace(t: string)
    requires IsNumeral(t)
    ensures t != [] && forall k :: 0 <= k < |t| ==> !IsSpace(t[k])
  {
    forall k | 0 <= k < |t| ensures !IsSpace(t[k]) {
      if !IsDigits(t) && k > 0 {
        assert t[k] == t[1..][k - 1];
      }
    }
  }

  /** int() reads a numeral surrounded by whitespace it skips as the numeral's value. */
  lemma ParseIntOfPadded(a: string, t: string, b: string)
    requires IsNumeral(t)
    requires forall k :: 0 <= k < |a| ==> IsIntSpace(a[k])
    requires forall k :: 0 <= k < |b| ==> IsIntSpace(b[k])
    ensures ParseInt(a + t + b) == ParseNumeral(t)
  {
    NumeralHasNoSpace(t);
    StripOfPadded(a, t, b);
    var s := a + t + b;
    forall k | 0 <= k < |s| ensures !IsInfoSeparator(s[k]) {
      if k < |a| {
        assert s[k] == a[k];
      } else if k < |a| + |t| {
        assert s[k] == t[k - |a|];
      } else {
        assert s[k] == b[k - |a| - |t|];
      }
    }
  }

  /** A text int() reads is its stripped numeral with whitespace int() skips around it. */
  lemma ParsedNumeralAt(s: string) returns (i: int)
    requires ParseInt(s).Some?
    ensures IntPaddedAt(s, Strip(s), i) && IsNumeral(Strip(s))
  {
    StripShape(s);
    i :| StrippedAt(s, Strip(s), i);
  }

  /**
   * int() reads a text exactly when it is an optional sign and one or more digits
   * with only whitespace int() skips around it; anything else raises ValueError.
   */
  lemma ParseIntAcceptsOnlyNumerals(s: string)
    ensures ParseInt(s).Some? <==> exists t, i :: IntPaddedAt(s, t, i) && IsNumeral(t)
  {
    if ParseInt(s).Some? {
      var i := ParsedNumeralAt(s);
    }
    if exists t, i :: IntPaddedAt(s, t, i) && IsNumeral(t) {
      var t, i :| IntPaddedAt(s, t, i) && IsNumeral(t);
      var a, b := s[..i], s[i + |t|..];
      assert s == a + t + b;
      ParseIntOfPadded(a, t, b);
    }
  }

  /** An optional sign followed by one or more digits, with nothing around it. */
  function ParseNumeral(t: string): Option<int> {
    if |t| > 0 && (t[0] == '+' || t[0] == '-') && IsDigits(t[1..]) then
      var v: int := DigitsValue(t[1..]);
      Some(if t[0] == '-' then -v else v)
    else if IsDigits(t) then Some(DigitsValue(t))
    else None
  }

  function DigitChar(d: nat): char
    requires d < 10
  {
    ('0' as int + d) as char
  }

  /** The decimal numeral of n, as str(n) writes it. */
  function NatDigits(n: nat): string
    decreases n
  {
    if n < 10 then [DigitChar(n)] else NatDigits(n / 10) + [DigitChar(n % 10)]
  }

  function Decimal(n: int): string {
    if n < 0 then "-" + NatDigits(-n) else NatDigits(n)
  }

  lemma {:induction false} NatDigitsValue(n: nat)
    ensures IsDigits(NatDigits(n))
    ensures DigitsValue(NatDigits(n)) == n
    decreases n
  {
    if n >= 10 {
      NatDigitsValue(n / 10);
      var d := NatDigits(n);
      assert d[..|d| - 1] == NatDigits(n / 10);
    }
  }

  /** int() reads str(n) back as n. */
  lemma DecimalReads(n: int)
    ensures ParseNumeral(Decimal(n)) == Some(n)
  {
    if n < 0 {
      NatDigitsValue(-n);
      var d := Decimal(n);
      assert d[0] == '-';
      assert d[1..] == NatDigits(-n);
    } else {
      NatDigitsValue(n);
    }
  }

  /** int() reads back every decimal numeral, whatever whitespace it skips surrounds it. */
  lemma ParseIntDecimal(n: int, a: string, b: string)
    requires forall k :: 0 <= k < |a| ==> IsIntSpace(a[k])
    requires forall k :: 0 <= k < |b| ==> IsIntSpace(b[k])
    ensures ParseInt(a + Decimal(n) + b) == Some(n)
  {
    DecimalReads(n);
    ParseIntOfPadded(a, Decimal(n), b);
  }

  /** str.strip() skips an information separator, but int() raises on it. */
  lemma SeparatorPaddedRejected()
    ensures Strip("\U{1c}5") == "5"
    ensures ParseInt("\U{1c}5") == None
  {
    var s := "\U{1c}5";
    assert IsInfoSeparator(s[0]);
    StripOfPadded(s[..1], "5", []);
    assert s == s[..1] + "5" + [];
  }
}

=== FILE: web_app.dfy ===
/**
 * The configuration and control logic of the web front end: the form merge of
 * update_config, the start/stop flag, and one pass of the run_scraper loop.
 */
module WebApp {
  import opened Common
  import opened Text
  import opened Seqs
  import opened Ledger
  import opened Cycle

  // ---------------------------------------------------------------------------
  // Configuration values
  // ---------------------------------------------------------------------------

  /** The JSON values a configuration holds: text, an integer, a list of texts. */
  datatype Value = Str(s: string) | Int(i: int) | StrList(items: seq<string>)

  /** One key of the configuration object, in the object's key order. */
  datatype Entry = Entry(key: string, value: Value)

  /** request.form.to_dict(). */
  type Form = map<string, string>

  function Keys(config: seq<Entry>): seq<string> {
    seq(|config|, i requires 0 <= i < |config| => config[i].key)
  }

  const DefaultProxies: seq<string> := [
    "172.173.132.85:80",
    "98.181.137.80:4145",
    "208.65.90.21:4145",
    "74.119.147.209:4145",
    "208.102.51.6:58208",
    "199.229.254.129:4145"
  ]

  /** DEFAULT_CONFIG, in its key order. */
  const DefaultConfig: seq<Entry> := [
    Entry("search_terms", StrList([])),
    Entry("location", Str("")),
    Entry("filter_companies", StrList([])),
    Entry("filter_words", StrList([])),
    Entry("interval_run", Int(180)),
    Entry("proxies", StrList(DefaultProxies))
  ]

  /** The JSON reply of a route: its status field and its message. */
  datatype Status = Success(message: string) | Error(message: string)

  const ConfigUpdated: string := "Configuration updated successfully."

  /** The error reply of update_config; interval_run is the only key it can name. */
  const InvalidInterval: string := "Invalid value for interval_run. Must be an integer."

  // ---------------------------------------------------------------------------
  // The comma-separated list fields
  // ---------------------------------------------------------------------------

  predicate IsListKey(key: string) {
    key == "search_terms" || key == "filter_companies" || key == "filter_words"
  }

  /** An item as a list field leaves it: non-empty, no comma, no whitespace at either end. */
  predicate Clean(item: string) {
    item != [] && ',' !in item && !IsSpace(item[0]) && !IsSpace(item[|item| - 1])
  }

  lemma StripKeepsOut(s: string, c: char)
    requires c !in s
    ensures c !in Strip(s)
  {
    var r := Strip(s);
    StripShape(s);
    var i :| StrippedAt(s, r, i);
    forall k | 0 <= k < |r| ensures r[k] != c {
      assert r[k] == s[i + k];
    }
  }

  /** The pieces stripped, in order, with the empty ones dropped. */
  function CleanItems(parts: seq<string>): (items: seq<string>)
    requires forall k :: 0 <= k < |parts| ==> ',' !in parts[k]
    ensures |items| <= |parts|
    ensures forall i :: 0 <= i < |items| ==> Clean(items[i])
  {
    if parts == [] then []
    else
      var t := Strip(parts[|parts| - 1]);
      StrippedPieceClean(parts[|parts| - 1]);
      var init := CleanItems(parts[..|parts| - 1]);
      if t == "" then init else init + [t]
  }

  /** A comma-free piece strips to nothing or to a clean item. */
  lemma StrippedPieceClean(s: string)
    requires ',' !in s
    ensures Strip(s) == [] || Clean(Strip(s))
  {
    StripShape(s);
    StripKeepsOut(s, ',');
  }

  /** [item.strip() for item in field.split(',') if item.strip()]. */
  function CleanList(field: string): (items: seq<string>)
    ensures |items| <= |Split(field, ',')|
    ensures forall i :: 0 <= i < |items| ==> Clean(items[i])
  {
    CleanItems(Split(field, ','))
  }

  /** Every piece stripped, in order. */
  function StripAll(parts: seq<string>): (r: seq<string>)
    ensures |r| == |parts|
  {
    if parts == [] then [] else StripAll(parts[..|parts| - 1]) + [Strip(parts[|parts| - 1])]
  }

  /** The list is the comprehension it models: the stripped pieces that are not empty, in order. */
  lemma {:induction false} CleanItemsIsFilter(parts: seq<string>)
    requires forall k :: 0 <= k < |parts| ==> ',' !in parts[k]
    ensures CleanItems(parts) == Filter(StripAll(parts), s => s != "")
  {
    if parts != [] {
      var init := parts[..|parts| - 1];
      CleanItemsIsFilter(init);
      var stripped := StripAll(parts);
      assert stripped[..|stripped| - 1] == StripAll(init);
    }
  }

  /** The items of a list field keep the order of the pieces they came from. */
  lemma CleanListInOrder(field: string)
    ensures IsSubsequence(CleanList(field), StripAll(Split(field, ',')))
  {
    CleanItemsIsFilter(Split(field, ','));
    FilterIsSubsequence(StripAll(Split(field, ',')), s => s != "");
  }

  /** Clean items are kept as they are. */
  lemma {:induction false} CleanItemsOfClean(items: seq<string>)
    requires forall i :: 0 <= i < |items| ==> Clean(items[i])
    ensures (forall i :: 0 <= i < |items| ==> ',' !in items[i]) && CleanItems(items) == items
  {
    if items != [] {
      var init := items[..|items| - 1];
      StripClean(items[|items| - 1]);
      CleanItemsOfClean(init);
      assert items == init + [items[|items| - 1]];
    }
  }

  lemma StripClean(t: string)
    requires Clean(t)
    ensures Strip(t) == t
  {
    StripOfPadded([], t, []);
    assert [] + t + [] == t;
  }

  /** Clean items written with commas between them come back as they were. */
  lemma CleanListJoin(items: seq<string>)
    requires forall i :: 0 <= i < |items| ==> Clean(items[i])
    ensures CleanList(Join(items, ',')) == items
  {
    if items == [] {
      assert Split("", ',') == [""];
      StripShape("");
      var i :| StrippedAt("", Strip(""), i);
    } else {
      SplitJoin(items, ',');
      CleanItemsOfClean(items);
    }
  }

  // ---------------------------------------------------------------------------
  // The form merge of update_config
  // ---------------------------------------------------------------------------

  /** The form gives interval_run a text int() cannot read. */
  predicate Rejects(e: Entry, form: Form) {
    e.key == "interval_run" && e.key in form && ParseInt(form[e.key]).None?
  }

  /** The entry after the loop body has seen it (an entry it rejects stays as it was). */
  function Updated(e: Entry, form: Form): (r: Entry)
    ensures r.key == e.key
    ensures e.key !in form ==> r == e
  {
    if e.key !in form then e
    else if IsListKey(e.key) then Entry(e.key, StrList(CleanList(form[e.key])))
    else if e.key == "interval_run" then
      match ParseInt(form[e.key])
      case Some(n) => Entry(e.key, Int(n))
      case None => e
    else Entry(e.key, Str(form[e.key]))
  }

  /** The position where the loop returns the error, if any. */
  function FirstRejected(config: seq<Entry>, form: Form): (k: Option<nat>)
    ensures k.Some? ==>
              && k.value < |config| && Rejects(config[k.value], form)
              && forall j :: 0 <= j < k.value ==> !Rejects(config[j], form)
    ensures k.None? ==> forall j :: 0 <= j < |config| ==> !Rejects(config[j], form)
  {
    if config == [] then None
    else if Rejects(config[0], form) then Some(0)
    else
      match FirstRejected(config[1..], form)
      case None => None
      case Some(k) => Some(k + 1)
  }

  /** The configuration with its first n entries through the loop body. */
  function ApplyForm(config: seq<Entry>, form: Form, n: nat): seq<Entry> {
    seq(|config|, i requires 0 <= i < |config| => if i < n then Updated(config[i], form) else config[i])
  }

  /** Where update_config stops: the reply, the dict as left in memory, and whether it was saved. */
  datatype FormOutcome = FormOutcome(status: Status, config: seq<Entry>, saved: bool)

  function FormUpdate(config: seq<Entry>, form: Form): FormOutcome {
    match FirstRejected(config, form)
    case Some(k) => FormOutcome(Error(InvalidInterval), ApplyForm(config, form, k), false)
    case None => FormOutcome(Success(ConfigUpdated), ApplyForm(config, form, |config|), true)
  }

  /**
   * Only keys already in the configuration are assigned: the keys and their order
   * stay, form fields naming other keys are ignored, and keys the form does not
   * name keep their values, whether or not the update is accepted.
   */
  lemma UpdateOnlyExistingKeys(config: seq<Entry>, form: Form)
    ensures var out := FormUpdate(config, form);
      && Keys(out.config) == Keys(config)
      && forall i :: 0 <= i < |config| && config[i].key !in form ==> out.config[i] == config[i]
  {
  }

  /** What the loop body stores for a key the form names and does not reject. */
  lemma UpdatedEntry(e: Entry, form: Form)
    requires e.key in form && !Rejects(e, form)
    ensures var u := Updated(e, form);
      && u.key == e.key
      && (IsListKey(e.key) ==> u.value.StrList? && forall t :: t in u.value.items ==> Clean(t))
      && (e.key == "interval_run" ==> u.value.Int? && ParseInt(form[e.key]) == Some(u.value.i))
      && (!IsListKey(e.key) && e.key != "interval_run" ==> u.value == Str(form[e.key]))
  {
    if IsListKey(e.key) {
      var items := CleanList(form[e.key]);
      forall t | t in items ensures Clean(t) {
        var k :| 0 <= k < |items| && items[k] == t;
      }
    }
  }

  /**
   * The update is saved exactly when no interval_run field is rejected; otherwise
   * the reply names interval_run.
   */
  lemma UpdateAcceptsOrRejects(config: seq<Entry>, form: Form)
    ensures var out := FormUpdate(config, form);
      && (out.saved <==> forall i :: 0 <= i < |config| ==> !Rejects(config[i], form))
      && (out.status.Success? <==> out.saved)
      && (!out.saved ==> out.status == Error(InvalidInterval))
      && (!out.saved ==> FirstRejected(config, form).Some?)
      && (!out.saved ==> config[FirstRejected(config, form).value].key == "interval_run")
  {
  }

  /**
   * A saved update stores clean items for a list key, the integer its field reads
   * as for interval_run, and the field's text for any other key the form names.
   */
  lemma SavedEntry(config: seq<Entry>, form: Form, i: nat)
    requires FormUpdate(config, form).saved
    requires i < |config| && config[i].key in form
    ensures var v := FormUpdate(config, form).config[i].value;
      && (IsListKey(config[i].key) ==> v.StrList? && forall t :: t in v.items ==> Clean(t))
      && (config[i].key == "interval_run" ==> v.Int? && ParseInt(form["interval_run"]) == Some(v.i))
      && (!IsListKey(config[i].key) && config[i].key != "interval_run" ==> v == Str(form[config[i].key]))
  {
    assert FirstRejected(config, form).None?;
    assert FormUpdate(config, form).config[i] == Updated(config[i], form);
    UpdatedEntry(config[i], form);
  }

  /** A list field written as clean items joined by commas is stored as those items. */
  lemma ListFieldRoundTrip(e: Entry, form: Form, items: seq<string>)
    requires IsListKey(e.key) && e.key in form && form[e.key] == Join(items, ',')
    requires forall j :: 0 <= j < |items| ==> Clean(items[j])
    ensures Updated(e, form) == Entry(e.key, StrList(items))
  {
    CleanListJoin(items);
  }

  lemma SavedAt(config: seq<Entry>, form: Form, i: nat)
    requires FormUpdate(config, form).saved && i < |config|
    ensures |FormUpdate(config, form).config| == |config|
    ensures FormUpdate(config, form).config[i] == Updated(config[i], form)
  {
  }

  lemma UpdatedListKey(e: Entry, form: Form)
    requires IsListKey(e.key) && e.key in form
    ensures Updated(e, form).value == StrList(CleanList(form[e.key]))
  {
  }

  /** An interval_run field holding a decimal numeral, with whitespace int() skips around it, is stored as that integer. */
  lemma IntervalRunStored(config: seq<Entry>, form: Form, i: nat, n: int, a: string, b: string)
    requires i < |config| && config[i].key == "interval_run"
    requires forall k :: 0 <= k < |a| ==> IsIntSpace(a[k])
    requires forall k :: 0 <= k < |b| ==> IsIntSpace(b[k])
    requires "interval_run" in form && form["interval_run"] == a + Decimal(n) + b
    ensures !Rejects(config[i], form)
    ensures FormUpdate(config, form).saved ==> FormUpdate(config, form).config[i].value == Int(n)
  {
    ParseIntDecimal(n, a, b);
    if FormUpdate(config, form).saved {
      assert FormUpdate(config, form).config[i] == Updated(config[i], form);
    }
  }

  // ---------------------------------------------------------------------------
  // load_config, update_config and the shared DEFAULT_CONFIG object
  // ---------------------------------------------------------------------------

  /** config.json, if it exists, and the contents of the DEFAULT_CONFIG object. */
  datatype Store = Store(file: Option<seq<Entry>>, defaults: seq<Entry>)

  /** What load_config returns. */
  function Loaded(st: Store): seq<Entry> {
    if st.file.Some? then st.file.value else st.defaults
  }

  datatype UpdateResult = UpdateResult(status: Status, store: Store)

  /**
   * update_config as written: without config.json the dict it changes is
   * DEFAULT_CONFIG itself, so the entries the loop passed before a rejection stay
   * changed in the defaults even though nothing is saved.
   */
  function UpdateConfigAsWrittenSpec(st: Store, form: Form): UpdateResult {
    var out := FormUpdate(Loaded(st), form);
    var defaults := if st.file.None? then out.config else st.defaults;
    UpdateResult(out.status, Store(if out.saved then Some(out.config) else st.file, defaults))
  }

  /** update_config working on a copy of what load_config returns. */
  function UpdateConfigSpec(st: Store, form: Form): UpdateResult {
    var out := FormUpdate(Loaded(st), form);
    UpdateResult(out.status, Store(if out.saved then Some(out.config) else st.file, st.defaults))
  }

  /** A form that sets search_terms and gives interval_run a value int() rejects. */
  const SoonForm: Form := map["search_terms" := "python", "interval_run" := "soon"]

  /**
   * With no config.json, SoonForm is rejected, yet every later load sees its
   * search terms.
   */
  lemma RejectedUpdateLeaksIntoDefaults()
    ensures var st := Store(None, DefaultConfig);
      var r := UpdateConfigAsWrittenSpec(st, SoonForm);
      && r.status == Error(InvalidInterval)
      && r.store.file == None
      && Loaded(r.store)[0] == Entry("search_terms", StrList(["python"]))
      && Loaded(r.store) != Loaded(st)
  {
    SoonRejectedAtInterval();
    SoonSetsTerms();
    var out := FormUpdate(DefaultConfig, SoonForm);
    assert out.config[0] == Updated(DefaultConfig[0], SoonForm);
  }

  /** The loop reaches interval_run, the fifth key, and returns there. */
  lemma SoonRejectedAtInterval()
    ensures FirstRejected(DefaultConfig, SoonForm) == Some(4)
  {
    SoonIsNotAnInteger();
    IntervalIsFifthKey();
    assert SoonForm["interval_run"] == "soon";
    FirstRejectedAt(DefaultConfig, SoonForm, 4);
  }

  /** interval_run is the fifth key of DEFAULT_CONFIG, and no earlier key is interval_run. */
  lemma IntervalIsFifthKey()
    ensures |DefaultConfig| == 6 && DefaultConfig[4].key == "interval_run"
    ensures forall j :: 0 <= j < 4 ==> DefaultConfig[j].key != "interval_run"
  {
    forall j | 0 <= j < 4 ensures DefaultConfig[j].key != "interval_run" {
      assert DefaultConfig[j].key[0] != 'i' by {
        assert j == 0 || j == 1 || j == 2 || j == 3;
      }
    }
  }

  /** Before that, the search_terms entry has been set. */
  lemma SoonSetsTerms()
    ensures Updated(DefaultConfig[0], SoonForm) == Entry("search_terms", StrList(["python"]))
  {
    PythonIsOneItem();
  }

  lemma SoonIsNotAnInteger()
    ensures ParseInt("soon") == None
  {
    StripOfPadded([], "soon", []);
    assert [] + "soon" + [] == "soon";
    assert !IsDigit('s');
  }

  lemma PythonIsOneItem()
    ensures CleanList("python") == ["python"]
  {
    var item := "python";
    assert item[0] == 'p' && item[|item| - 1] == 'n';
    assert ',' !in item by {
      assert forall k :: 0 <= k < |item| ==> 'a' <= item[k] <= 'z';
    }
    assert Join([item], ',') == item;
    CleanListJoin([item]);
  }

  /** In the corrected update a rejected form changes nothing at all. */
  lemma RejectedUpdateChangesNothing(st: Store, form: Form)
    ensures var r := UpdateConfigSpec(st, form);
      r.status.Error? ==> r.store == st
  {
  }

  /** Whenever the update is accepted, the corrected update leaves loads exactly as the written one does. */
  lemma CorrectedAgreesWhenAccepted(st: Store, form: Form)
    ensures var fixed := UpdateConfigSpec(st, form);
      var written := UpdateConfigAsWrittenSpec(st, form);
      && fixed.status == written.status
      && (fixed.status.Success? ==> Loaded(fixed.store) == Loaded(written.store) == FormUpdate(Loaded(st), form).config)
  {
  }

  /** A configuration dict that load_config hands out and update_config changes in place. */
  class ConfigDict {
    var entries: seq<Entry>

    constructor (entries: seq<Entry>)
      ensures this.entries == entries
    {
      this.entries := entries;
    }
  }

  /** config.json and the DEFAULT_CONFIG object, which lives as long as the process. */
  class ConfigStore {
    var file: Option<seq<Entry>>
    const defaults: ConfigDict

    constructor ()
      ensures file == None && fresh(defaults) && defaults.entries == DefaultConfig
    {
      file := None;
      defaults := new ConfigDict(DefaultConfig);
    }

    function State(): Store
      reads this, defaults
    {
      Store(file, defaults.entries)
    }

    /** load_config(): a new dict read from the file, or DEFAULT_CONFIG itself. */
    method LoadConfig() returns (config: ConfigDict)
      ensures file.None? ==> config == defaults
      ensures file.Some? ==> fresh(config) && config.entries == file.value
      ensures config.entries == Loaded(State())
    {
      if file.Some? {
        config := new ConfigDict(file.value);
      } else {
        config := defaults;
      }
    }

    /** The for loop of update_config, changing config in place; the index where it returned, if it did. */
    static method ApplyFormTo(config: ConfigDict, form: Form) returns (rejected: Option<nat>)
      modifies config
      ensures rejected == FirstRejected(old(config.entries), form)
      ensures config.entries ==
                ApplyForm(old(config.entries), form, if rejected.Some? then rejected.value else |old(config.entries)|)
    {
      ghost var original := config.entries;
      var i := 0;
      while i < |config.entries|
        invariant 0 <= i <= |config.entries| == |original|
        invariant config.entries == ApplyForm(original, form, i)
        invariant forall j :: 0 <= j < i ==> !Rejects(original[j], form)
      {
        var e := config.entries[i];
        if e.key in form {
          var u := UpdateEntry(e, form);
          if u.None? {
            FirstRejectedAt(original, form, i);
            return Some(i);
          }
          config.entries := config.entries[i := u.value];
        }
        ApplyFormStep(original, form, i);
        i := i + 1;
      }
      FirstRejectedAt(original, form, |original|);
      rejected := None;
    }

    /** The body of that loop for a key the form names: the new entry, or None where it returns the error. */
    static method UpdateEntry(e: Entry, form: Form) returns (u: Option<Entry>)
      requires e.key in form
      ensures u.None? <==> Rejects(e, form)
      ensures u.Some? ==> u.value == Updated(e, form)
    {
      if IsListKey(e.key) {
        u := Some(Entry(e.key, StrList(CleanList(form[e.key]))));
      } else if e.key == "interval_run" {
        var n := ParseInt(form[e.key]);
        if n.None? {
          return None;
        }
        u := Some(Entry(e.key, Int(n.value)));
      } else {
        u := Some(Entry(e.key, Str(form[e.key])));
      }
    }

    /** update_config() as written. */
    method UpdateConfigAsWritten(form: Form) returns (status: Status)
      modifies this, defaults
      ensures UpdateResult(status, State()) == UpdateConfigAsWrittenSpec(old(State()), form)
    {
      var config := LoadConfig();
      var rejected := ApplyFormTo(config, form);
      if rejected.Some? {
        return Error(InvalidInterval);
      }
      file := Some(config.entries);
      status := Success(ConfigUpdated);
    }

    /** update_config() on a copy of the loaded configuration. */
    method UpdateConfig(form: Form) returns (status: Status)
      modifies this
      ensures UpdateResult(status, State()) == UpdateConfigSpec(old(State()), form)
    {
      var loaded := LoadConfig();
      var config := new ConfigDict(loaded.entries);
      var rejected := ApplyFormTo(config, form);
      if rejected.Some? {
        return Error(InvalidInterval);
      }
      file := Some(config.entries);
      status := Success(ConfigUpdated);
    }
  }

  lemma ApplyFormStep(config: seq<Entry>, form: Form, i: nat)
    requires i < |config|
    ensures ApplyForm(config, form, i + 1) == ApplyForm(config, form, i)[i := Updated(config[i], form)]
  {
  }

  /** FirstRejected is the first position the loop rejects. */
  lemma FirstRejectedAt(config: seq<Entry>, form: Form, i: nat)
    requires i <= |config|
    requires forall j :: 0 <= j < i ==> !Rejects(config[j], form)
    requires i < |config| ==> Rejects(config[i], form)
    ensures FirstRejected(config, form) == if i < |config| then Some(i) else None
  {
  }

  // ---------------------------------------------------------------------------
  // start_scraper and stop_scraper
  // ---------------------------------------------------------------------------

  /** is_scraper_running. */
  class ScraperControl {
    var running: bool

    constructor ()
      ensures !running
    {
      running := false;
    }

    /** start_scraper(): succeeds only from stopped, and the flag is set afterwards either way. */
    method StartScraper() returns (status: Status)
      modifies this
      ensures running
      ensures status.Success? <==> !old(running)
      ensures status == if old(running) then Error("Job scraper is already running.") else Success("Job scraper started.")
    {
      if !running {
        running := true;
        return Success("Job scraper started.");
      }
      status := Error("Job scraper is already running.");
    }

    /** stop_scraper(): succeeds only from running, and the flag is clear afterwards either way. */
    method StopScraper() returns (status: Status)
      modifies this
      ensures !running
      ensures status.Success? <==> old(running)
      ensures status == if old(running) then Success("Job scraper stopped.") else Error("Job scraper is not running.")
    {
      if running {
        running := false;
        return Success("Job scraper stopped.");
      }
      status := Error("Job scraper is not running.");
    }
  }

  // ---------------------------------------------------------------------------
  // One pass of the run_scraper loop
  // ---------------------------------------------------------------------------

  /** config[key]: the first entry with that key. */
  function Lookup(config: seq<Entry>, key: string): (v: Option<Value>)
    ensures v.Some? <==> key in Keys(config)
  {
    if config == [] then None
    else
      assert Keys(config) == [config[0].key] + Keys(config[1..]);
      if config[0].key == key then Some(config[0].value)
      else Lookup(config[1..], key)
  }

  /** Python truthiness: a non-empty text or list, a non-zero integer. */
  predicate Truthy(v: Value) {
    match v
    case Str(s) => s != ""
    case Int(n) => n != 0
    case StrList(items) => items != []
  }

  /** What a for loop over the value yields: a text gives its characters; an integer cannot be iterated. */
  function Iterated(v: Value): Option<seq<string>> {
    match v
    case Str(s) => Some(seq(|s|, i requires 0 <= i < |s| => [s[i]]))
    case Int(_) => None
    case StrList(items) => Some(items)
  }

  /** The configuration as job_scraper reads it; None when a key is missing or holds a value it cannot use. */
  function ScraperView(config: seq<Entry>): Option<ScraperConfig> {
    var proxies := Lookup(config, "proxies");
    var terms := Lookup(config, "search_terms");
    var location := Lookup(config, "location");
    var companies := Lookup(config, "filter_companies");
    var words := Lookup(config, "filter_words");
    if proxies.None? || terms.None? || location.None? || companies.None? || words.None? then None
    else if !location.value.Str? then None
    else
      match (Iterated(proxies.value), Iterated(terms.value), Iterated(companies.value), Iterated(words.value))
      case (Some(p), Some(t), Some(c), Some(w)) => Some(ScraperConfig(t, location.value.s, c, w, p))
      case _ => None
  }

  const ErrorPauseSeconds: nat := 60

  /** time.sleep(config['interval_run']); any exception there is caught and followed by the one-minute pause. */
  function SleepAfter(interval: Option<Value>): (r: nat)
    ensures interval == Some(Int(r)) || r == ErrorPauseSeconds
  {
    match interval
    case Some(Int(n)) => if n >= 0 then n else ErrorPauseSeconds
    case _ => ErrorPauseSeconds
  }

  datatype Iteration = Iteration(cycleRan: bool, file: LedgerFile, records: seq<TermRecord>, sleepSeconds: nat)

  /**
   * One pass of the while loop in run_scraper: job_scraper runs when search_terms
   * is truthy; the pass then sleeps interval_run seconds, or 60 seconds when
   * something raised.
   */
  function IterationSpec(config: seq<Entry>, file: LedgerFile, fetch: Fetch): Iteration {
    match Lookup(config, "search_terms")
    case None => Iteration(false, file, [], ErrorPauseSeconds)
    case Some(terms) =>
      if !Truthy(terms) then Iteration(false, file, [], SleepAfter(Lookup(config, "interval_run")))
      else
        match ScraperView(config)
        case None => Iteration(true, file, [], ErrorPauseSeconds)
        case Some(sc) =>
          var out := JobScraperSpec(file, sc, fetch);
          Iteration(true, out.state.file, out.state.records,
                    if out.completed then SleepAfter(Lookup(config, "interval_run")) else ErrorPauseSeconds)
  }

  /**
   * job_scraper is invoked exactly when search_terms is present and non-empty;
   * when it is not, the ledger is untouched and nothing is e-mailed.
   */
  lemma JobScraperRunsIffSearchTerms(config: seq<Entry>, file: LedgerFile, fetch: Fetch)
    ensures var r := IterationSpec(config, file, fetch);
      && (r.cycleRan <==> Lookup(config, "search_terms").Some? && Truthy(Lookup(config, "search_terms").value))
      && (forall ts :: Lookup(config, "search_terms") == Some(StrList(ts)) ==> (r.cycleRan <==> ts != []))
      && (!r.cycleRan ==> r.file == file && r.records == [])
  {
  }

  /** A pass sleeps interval_run seconds after a completed cycle with a valid interval, and 60 seconds otherwise. */
  lemma IterationSleeps(config: seq<Entry>, file: LedgerFile, fetch: Fetch)
    ensures var r := IterationSpec(config, file, fetch);
      && (r.sleepSeconds == ErrorPauseSeconds || Lookup(config, "interval_run") == Some(Int(r.sleepSeconds)))
      && forall n: int :: n >= 0 && Lookup(config, "interval_run") == Some(Int(n)) && Lookup(config, "search_terms").Some? ==>
           var sc := ScraperView(config);
           (r.sleepSeconds == n <==> !r.cycleRan || (sc.Some? && JobScraperSpec(file, sc.value, fetch).completed) || n == ErrorPauseSeconds)
  {
  }

  /** One pass of run_scraper's loop against the current configuration and ledger. */
  method RunScraperIteration(store: ConfigStore, ledger: SentJobs, fetch: Fetch)
    returns (cycleRan: bool, records: seq<TermRecord>, sleepSeconds: nat)
    modifies ledger
    ensures Iteration(cycleRan, ledger.File(), records, sleepSeconds) == IterationSpec(old(Loaded(store.State())), old(ledger.File()), fetch)
  {
    var config := store.LoadConfig();
    var entries := config.entries;
    var terms := Lookup(entries, "search_terms");
    if terms.None? {
      return false, [], ErrorPauseSeconds;
    }
    cycleRan := false;
    records := [];
    if Truthy(terms.value) {
      cycleRan := true;
      var sc := ScraperView(entries);
      if sc.None? {
        return true, [], ErrorPauseSeconds;
      }
      var completed;
      completed, records := JobScraper(ledger, sc.value, fetch);
      if !completed {
        return true, records, ErrorPauseSeconds;
      }
    }
    sleepSeconds := SleepAfter(Lookup(entries, "interval_run"));
  }
}
